=== FILE: README.md ===
# Habit-correction backtester, modelled in Dafny

This project models the habit-correction backtester of `OOP_TermProject_ver2.cpp`. It covers:

- the fee-aware position ledger shared by every trading strategy;
- three per-tick trading habits:
  - the panic seller ("쫄보"), which goes all in once and sells everything at a fixed loss;
  - dollar-cost averaging ("코치"), which buys a fraction of its cash on the first tick, after a fixed interval, or on a drop from the last buy;
  - buy and hold ("존버"), which buys once and never trades again;
- the backtest engine, which replays one price series through every registered strategy and builds one report per strategy, including the maximum drawdown of its equity curve;
- the analysis of the finished reports:
  - the bubble-sort ranking by total return;
  - the closing comment that compares dollar-cost averaging with panic selling.

The model is functional:

- The ledger and the strategies are immutable datatypes.
- Each habit is a pure step function for one price tick.
- A run over a price series is a left fold of that step.
- The engine's replay and the ranking are methods with loop invariants.

Arithmetic follows C++:

- A cast of a `double` to an integer type truncates toward zero (`Numeric.Trunc`).
- Integer `/` truncates toward zero (`Numeric.CDiv`).

Integers are unbounded. The `double` rates (fee, stop-loss, drop trigger, buy ratios) and the `double` results (total return, drawdown) are Dafny `real`s, that is, exact rationals. This idealises the C++ doubles: a comparison that sits exactly on a threshold is decided exactly here, whereas in binary floating point it may fall either way.

Modules:

- `Numeric`: C++ truncating conversions and division.
- `Ledger`: `buy`, `sellAll`, `getTotalValue` and `recordEquity`, and what they preserve.
- `Strategies`: the three `onPrice` steps and the fold `Run`.
- `StrategyRuns`: facts about whole runs (equity curve, single-shot habits, no debt).
- `Engine`: configuration, `calculateMDD`, `buildReport` and `runBattle`.
- `Reporting`: the ranking loop and `getSummaryComment`.
- `Scenarios`: worked runs on short price series and the standard names.

Three behaviours of the code are worth stating plainly:

- **Drawdown peak.** The running peak starts at 0, so nothing is measured before a positive point. A curve that starts at or below zero measures no drawdown until a positive point appears (`OOP_TermProject_ver2.cpp:804`).
- **Buy guard.** The guard compares cash with the notional plus the *truncated* fee, so a fraction of a unit of fee never blocks a buy (`OOP_TermProject_ver2.cpp:581`).
- **Zero starting cash.** The total return divides by the starting cash with no guard against zero (`OOP_TermProject_ver2.cpp:775`). The model therefore requires non-zero starting cash where a report is built.

## Model

| member | source | states |
|---|---|---|
| Numeric.Trunc | OOP_TermProject_ver2.cpp:579 | casting a fee to `long` drops the fraction toward zero: the result is within one unit of the value, on the side of zero |
| Numeric.CDiv | OOP_TermProject_ver2.cpp:585 | C++ integer division: the remainder has the sign of the dividend and is smaller in magnitude than the divisor |
| Numeric.CDivBrackets | OOP_TermProject_ver2.cpp:654 | for a non-negative budget and positive per-share cost the quotient is the largest count whose total cost fits in the budget |
| Ledger.Open | OOP_TermProject_ver2.cpp:610-611 | a strategy's ledger starts with all the given cash, no shares, a zero average, no history and zero counters |
| Ledger.Buy | OOP_TermProject_ver2.cpp:576-589 | a buy the cash cannot cover including the truncated fee, or with a non-positive quantity, changes nothing; otherwise cash drops by exactly notional plus fee, shares rise by the quantity, one buy is counted, sales and history are untouched, and the new average times the new holding is the old cost basis plus the notional up to a truncation remainder below one per share |
| Ledger.SellAll | OOP_TermProject_ver2.cpp:591-602 | an empty holding changes nothing; otherwise cash rises by exactly the proceeds minus the truncated fee, shares and average price become 0, one sale is counted and buys are untouched |
| Ledger.FeeBounds | OOP_TermProject_ver2.cpp:579 | the fee on a non-negative notional at a non-negative rate is non-negative, never above the exact fee, and never above the notional for a rate of at most one; the same cast is used for sales at line 596 |
| Ledger.CanBuy | OOP_TermProject_ver2.cpp:581 | the buy guard admits only a positive quantity, and then, at a non-negative price and fee rate, the cash covers at least the notional; the fee-inclusive comparison itself is the guard's definition |
| Ledger.TotalValue | OOP_TermProject_ver2.cpp:624-627 | the mark-to-market value is the cash when nothing is held, and at least the cash at a non-negative price |
| Ledger.RecordEquity | OOP_TermProject_ver2.cpp:604-607 | appends exactly one point, cash plus shares at the price, and keeps the earlier history and everything else |
| Ledger.BuyKeepsSound | OOP_TermProject_ver2.cpp:576-589 | a buy never leaves cash negative and keeps the average price non-negative, and zero when nothing is held |
| Ledger.SellAllKeepsSound | OOP_TermProject_ver2.cpp:591-602 | with a fee rate in [0, 1] a sale keeps cash non-negative and resets the average with the holding |
| Ledger.RecordEquityKeepsSound | OOP_TermProject_ver2.cpp:604-607 | with no debt the recorded equity point is non-negative |
| Ledger.BuyCostsOnlyTheFee | OOP_TermProject_ver2.cpp:576-589 | an accepted buy lowers the mark-to-market value at the trade price by exactly the fee, because the fee is kept out of the cost basis |
| Ledger.SellAllCostsOnlyTheFee | OOP_TermProject_ver2.cpp:591-602 | selling everything lowers the mark-to-market value at the trade price by exactly the fee |
| Ledger.BuyIntoEmptyRecordsPrice | OOP_TermProject_ver2.cpp:583-585 | the first buy into an empty position sets the average price to the price paid |
| Ledger.BuyAverageBetween | OOP_TermProject_ver2.cpp:583-585 | the truncated weighted average after a buy lies between the old average and the price paid |
| Ledger.WeightedAverageBetween | OOP_TermProject_ver2.cpp:583-585 | a truncated weighted average of two values lies between them |
| Strategies.NewPanicSell | OOP_TermProject_ver2.cpp:645-647 | the panic seller starts with its name, all its cash, no position, no history, the given stop-loss and fee rates and the flag unset |
| Strategies.NewDca | OOP_TermProject_ver2.cpp:687-690 | dollar-cost averaging starts with its name, all its cash, no position, the given drop rate, interval, buy ratio and fee rate, and no last buy (index -1, price 0) |
| Strategies.NewHold | OOP_TermProject_ver2.cpp:738-740 | buy and hold starts with its name, all its cash, no position, the given initial-buy ratio and fee rate and the flag unset |
| Strategies.UnitCost | OOP_TermProject_ver2.cpp:654 | the per-share cost used for sizing is never below the price |
| Strategies.Affordable | OOP_TermProject_ver2.cpp:717 | the share count for a non-negative budget is the largest whose per-share cost fits in the budget |
| Strategies.PanicSellAct | OOP_TermProject_ver2.cpp:649-670 | the flag is never reset, and it is set exactly on an entry tick with a positive computed quantity, even when the ledger then refuses the buy; a buy happens only on the entry tick; the entry offers the ledger every share the whole cash affords at the per-share cost; a sale of the whole holding happens exactly when the inclusive stop-loss fires on a tick that is not the entry tick; each counter moves by at most one; a tick with neither a positive entry quantity nor a stop-loss changes nothing |
| Strategies.DcaAct | OOP_TermProject_ver2.cpp:692-724 | never sells or loses shares; any change happens only on a tick that passes the first-buy, interval or drop trigger with a positive quantity for the budget, and such a tick always sets the last-buy memory to this tick and price, whether or not the ledger accepted; on every such tick the quantity offered to the ledger is what the budget (the truncated buy ratio of cash, or all cash when that is below one share's price) affords, so the shares bought fit in the budget at the per-share cost |
| Strategies.HoldAct | OOP_TermProject_ver2.cpp:742-755 | never sells; once bought it changes nothing; the flag is set exactly on the first tick with a share's price in cash and a positive quantity for the truncated initial-buy ratio of that cash, and that quantity is offered to the ledger; a buy is counted only on the tick that sets the flag, and any tick that does not set it changes nothing |
| Strategies.Act | OOP_TermProject_ver2.cpp:836 | the virtual dispatch keeps the variant, name, fee rate and history; at most one buy per tick, and only the panic seller ever sells or loses shares |
| Strategies.OnPrice | OOP_TermProject_ver2.cpp:834-836 | one tick is exactly the variant's decision followed by recording equity: apart from the history, the result is the acted strategy, and the history gains exactly one point, the value after acting at the tick's price |
| Strategies.Run | OOP_TermProject_ver2.cpp:829-839 | the replay of one strategy keeps its name, variant and fee rate |
| Strategies.RunStepsInOrder | OOP_TermProject_ver2.cpp:829-839 | the replay is a left fold: the run over ticks `0 .. n` is the run over ticks `0 .. n - 1` followed by tick `n`, passed index `n` |
| StrategyRuns.RunExtendsEquity | OOP_TermProject_ver2.cpp:829-839 | a run over n ticks appends exactly n points and keeps the earlier history |
| StrategyRuns.RunRecordsEveryTick | OOP_TermProject_ver2.cpp:829-839 | point i of a run's history is the value after tick i at tick i's price |
| StrategyRuns.LastEquityIsFinalValue | OOP_TermProject_ver2.cpp:841-845 | the last equity point equals the final value at the last price, which the report uses |
| StrategyRuns.PanicStepKeepsReachable | OOP_TermProject_ver2.cpp:649-672 | one tick preserves the panic seller's reachable states: at most one buy, a sale only after it, nothing held or bought before the flag |
| StrategyRuns.PanicRunKeepsReachable | OOP_TermProject_ver2.cpp:649-672 | every run preserves those reachable states |
| StrategyRuns.PanicSellSingleShot | OOP_TermProject_ver2.cpp:652-668 | from a fresh start the panic seller buys at most once and sells at most as often as it bought |
| StrategyRuns.PanicNeverBuysAfterEntry | OOP_TermProject_ver2.cpp:652-660 | once entered, whether or not the ledger accepted the entry, the panic seller never buys again and stays entered |
| StrategyRuns.HoldRunKeepsReachable | OOP_TermProject_ver2.cpp:742-757 | buy and hold keeps at most one buy and no sale over any run |
| StrategyRuns.HoldSingleShot | OOP_TermProject_ver2.cpp:744-755 | from a fresh start buy and hold buys at most once and never sells |
| StrategyRuns.HoldIdleAfterBuy | OOP_TermProject_ver2.cpp:744-756 | after its buy, buy and hold only extends its equity curve |
| StrategyRuns.DcaNeverSells | OOP_TermProject_ver2.cpp:692-726 | over any run dollar-cost averaging never sells and never holds fewer shares |
| StrategyRuns.RunKeepsSound | OOP_TermProject_ver2.cpp:576-607 | with a fee rate in [0, 1], a strategy that starts without debt never goes into debt, and its equity curve stays non-negative |
| Engine.DefaultConfig | OOP_TermProject_ver2.cpp:38-44 | the defaults: positive starting cash, a non-negative fee rate, negative stop-loss and drop thresholds, a positive interval and buy ratios in (0, 1] |
| Engine.NewEngine | OOP_TermProject_ver2.cpp:785 | a new engine keeps the given configuration and starts with no strategies and no results |
| Engine.AddStrategy | OOP_TermProject_ver2.cpp:795-798 | registration appends, so later steps see strategies in registration order |
| Engine.StandardLineup | OOP_TermProject_ver2.cpp:1050-1060 | the panic seller, dollar-cost averaging and buy and hold are registered in that order, each fresh with the configured starting cash, and each with its configured threshold, rates, interval and ratio |
| Engine.PeakAt | OOP_TermProject_ver2.cpp:804-810 | the running peak is the largest of zero and the points so far, and is one of them when positive |
| Engine.MddLoop | OOP_TermProject_ver2.cpp:807-817 | the drawdown loop ends with the largest drawdown over the whole curve, attained at some point or zero |
| Engine.CalculateMdd | OOP_TermProject_ver2.cpp:800-819 | an empty curve gives 0; the result is non-negative, at least 100 times every point's fall from its running peak, and either 0 or attained at some point |
| Engine.MddOfNonDecreasingIsZero | OOP_TermProject_ver2.cpp:800-819 | a curve that never falls has zero drawdown |
| Engine.MddAtMostHundred | OOP_TermProject_ver2.cpp:800-819 | a curve without negative points has drawdown in [0, 100] |
| Engine.TotalReturn | OOP_TermProject_ver2.cpp:775 | the return times the starting cash is 100 times the gain; for positive starting cash it is positive exactly on a gain and zero exactly on no change |
| Engine.BuildReport | OOP_TermProject_ver2.cpp:769-782 | the report carries the name, the configured starting cash, the value at the last price, the return on it, the drawdown of the equity curve, and the counters, holding and average price as they stand |
| Engine.TickAll | OOP_TermProject_ver2.cpp:834-837 | every strategy, in order, takes the same tick and nothing else changes |
| Engine.Reports | OOP_TermProject_ver2.cpp:842-846 | one report per strategy, in registration order |
| Engine.RunBattle | OOP_TermProject_ver2.cpp:821-847 | an empty series changes nothing, whatever the starting cash; otherwise every strategy has taken ticks 0 to len-1 in order, and exactly one report per strategy is appended after the earlier results, in registration order, at the last price |
| Engine.RunBattleRecordsEveryTick | OOP_TermProject_ver2.cpp:821-847 | after a replay every fresh strategy's history has one point per tick, and its report's final equity is the last point |
| Engine.RunDrawdownWithinHundred | OOP_TermProject_ver2.cpp:800-819 | a replayed strategy without debt reports a drawdown in [0, 100] |
| Reporting.SwapKeepsReports | OOP_TermProject_ver2.cpp:896-899 | exchanging neighbours neither adds nor loses a report |
| Reporting.SwapKeepsTies | OOP_TermProject_ver2.cpp:896-899 | exchanging neighbours of different return keeps the order among reports of equal return |
| Reporting.BubblePass | OOP_TermProject_ver2.cpp:894-900 | one pass rearranges the reports, swaps only strictly better later ones forward, sinks the lowest return of the range to its end, leaves the sorted tail alone, and changes nothing on ranked input |
| Reporting.Rank | OOP_TermProject_ver2.cpp:891-901 | the ranking is a permutation of the results, best return first, with reports of equal return in their original order, and is the identity on ranked input |
| Reporting.Contains | OOP_TermProject_ver2.cpp:929-931 | `find` succeeds whenever the tag is a prefix of the name, and never on a name shorter than the tag |
| Reporting.ContainsAt | OOP_TermProject_ver2.cpp:929-931 | `find` succeeds exactly when the tag occurs at some index of the name |
| Reporting.FindLast | OOP_TermProject_ver2.cpp:927-933 | the scan finds -1 exactly when no name contains the tag, and otherwise the last report whose name does |
| Reporting.LastNamed | OOP_TermProject_ver2.cpp:924-933 | the whole scan from the first report gives the last report named with the tag, or -1 when there is none |
| Reporting.Verdict | OOP_TermProject_ver2.cpp:938-954 | the DCA template, carrying the margin, is chosen exactly when the DCA return beats the panic return; otherwise the panic template |
| Reporting.SummaryComment | OOP_TermProject_ver2.cpp:915-956 | too few results exactly when fewer than two; no comparable strategy exactly when no name has the panic tag or none has the DCA tag; otherwise the DCA template with the margin exactly when the last DCA-named return beats the last panic-named one, else the panic template |
| Scenarios.PanicTick1 | OOP_TermProject_ver2.cpp:662-668 | a loss of exactly the stop-loss rate sells, because the comparison is inclusive |
| Scenarios.PanicSellOnTwoDrops | OOP_TermProject_ver2.cpp:649-672 | with no fee, a 10% stop-loss and 1000 in cash over 100, 90, 81: 10 shares are bought at tick 0 and sold at tick 1, leaving 900 in cash and history 1000, 900, 900 |
| Scenarios.PanicEntryRefusedByFee | OOP_TermProject_ver2.cpp:652-659 | with the default fee the computed quantity can be one the ledger refuses, and the panic seller still marks itself as entered |
| Scenarios.PanicSellLockedOutByFee | OOP_TermProject_ver2.cpp:652-659 | after such a refused entry the panic seller never buys on any later prices |
| Scenarios.HoldThroughSwing | OOP_TermProject_ver2.cpp:742-757 | buy and hold with ratio one half buys 5 shares at 100 and then only marks them to market through 120 and 80 |
| Scenarios.DcaWaitsOnSmallDip | OOP_TermProject_ver2.cpp:700-708 | a 1% dip neither meets the 5% drop trigger nor ends the interval, so no buy follows the first |
| Scenarios.DcaBuysAgainOnDrop | OOP_TermProject_ver2.cpp:700-723 | a 6% fall from the last buy triggers a second buy of a quarter of the remaining cash, with the truncated new average |
| Scenarios.DcaIntervalTick | OOP_TermProject_ver2.cpp:702-707 | five ticks after the last buy the interval trigger buys at an unchanged price |
| Scenarios.StandardNamesAreFound | OOP_TermProject_ver2.cpp:927-933 | on the standard line-up the tags pick the panic seller and dollar-cost averaging |

## Left out

- `Market::simulatePriceChange` draws random prices and is not modelled. The price series is a parameter, a sequence of positive prices.
- `Stock` is replaced by that sequence. The `-1` sentinel of `getPriceAt` cannot occur in a replay.
- Zero or negative prices are excluded by precondition, to match the price list the engine is fed, which is positive. A zero price would make the integer division by the per-share cost `price + (int)(price * feeRate)` divide by zero (lines 654, 717, 749). The loss and drop ratios divide by the average and last-buy prices, which the source guards to be positive.
- A negative fee rate is excluded by precondition, because it could make the per-share cost zero.
- Non-zero starting cash is required where a report is built, because the return divides by it; with zero cash the source yields an infinite or NaN `double`.
- The order-execution demo (`Account`, `Order`, `Transaction`, `User`, `Portfolio`, `Position`) and `main` are not part of this model.
- Console output is not modelled: `printSummary`, the printing half of `printRanking` and the `stringstream` text of the closing comment. The comment is one of four outcomes, with the margin it prints.
- `changeRate` is computed by the replay but read by no strategy, so it is dropped. `onFinish` does nothing for every strategy, so it is dropped too.
- Floating point is idealised as exact rationals: fee, rates, ratios, total return and drawdown. Rounding of `double` arithmetic is not modelled.
- Fixed-width overflow of `int` and `long` is not modelled: integers are unbounded.
- Memory ownership (`new`/`delete`) is not modelled.
- Strategies are values, not shared objects: the engine owns and deletes each registered pointer (lines 787-793), so every registered strategy is a distinct object, and registering one pointer twice lies outside what the code supports. Pointer aliasing is therefore not modelled.
- Substring search works on Dafny characters, not on the UTF-8 bytes `std::string::find` sees. For the tags and names here the two agree.

=== FILE: engine.dfy ===
/** The backtest engine: the configuration, the per-strategy report, maximum
    drawdown over an equity curve, and the replay that drives one price
    series through every registered strategy in lock-step. */
module Engine {
  import opened Ledger
  import opened Strategies
  import opened StrategyRuns

  datatype Config = Config(
    initialCash: int,
    feeRate: real,
    panicThreshold: real,
    dcaDropRate: real,
    dcaInterval: int,
    dcaBuyRatio: real,
    holdBuyRatio: real)

  /** The defaults the configuration is built with: 10,000,000 in cash, a
      0.015% fee, a 10% stop-loss, a 5% drop trigger, a five-tick interval, a
      quarter of cash per averaging buy and half of it for the one hold buy. */
  function DefaultConfig(): (c: Config)
    ensures c.initialCash > 0 && c.feeRate >= 0.0
    ensures c.panicThreshold < 0.0 && c.dcaDropRate < 0.0 && c.dcaInterval > 0
    ensures 0.0 < c.dcaBuyRatio <= 1.0 && 0.0 < c.holdBuyRatio <= 1.0
  {
    Config(10000000, 0.00015, -0.10, -0.05, 5, 0.25, 0.5)
  }

  /** The finished figures of one strategy. Returns and drawdowns are
      percentages. */
  datatype Report = Report(
    name: string,
    initialCash: int,
    finalEquity: int,
    totalReturn: real,
    maxDrawdown: real,
    buyCount: nat,
    sellCount: nat,
    finalShares: nat,
    avgPrice: int)

  datatype Engine = Engine(config: Config, strategies: seq<Strategy>, results: seq<Report>)

  function NewEngine(config: Config): (e: Engine)
    ensures e.config == config && e.strategies == [] && e.results == []
  {
    Engine(config, [], [])
  }

  /** Registration appends, so strategies run and report in registration order. */
  function AddStrategy(e: Engine, s: Strategy): (r: Engine)
    ensures r.config == e.config && r.results == e.results
    ensures |r.strategies| == |e.strategies| + 1
    ensures r.strategies[..|e.strategies|] == e.strategies && r.strategies[|e.strategies|] == s
  {
    e.(strategies := e.strategies + [s])
  }

  /** The three habits, registered panic seller first, then dollar-cost
      averaging, then buy and hold, each with the configuration's starting cash. */
  function StandardLineup(config: Config): (e: Engine)
    ensures |e.strategies| == 3 && e.results == []
    ensures e.strategies[0].name == PanicName && e.strategies[1].name == DcaName && e.strategies[2].name == HoldName
    ensures forall k :: 0 <= k < 3 ==> Fresh(e.strategies[k].ledger) && e.strategies[k].ledger.cash == config.initialCash
    // each slot carries its configured parameters
    ensures e.strategies[0].kind == PanicSell(config.panicThreshold, config.feeRate, false)
    ensures e.strategies[1].kind == Dca(config.dcaDropRate, config.dcaInterval, config.dcaBuyRatio, config.feeRate, -1, 0)
    ensures e.strategies[2].kind == Hold(config.holdBuyRatio, config.feeRate, false)
  {
    var e := NewEngine(config);
    var e := AddStrategy(e, NewPanicSell(config.initialCash, config.panicThreshold, config.feeRate));
    var e := AddStrategy(e, NewDca(config.initialCash, config.dcaDropRate, config.dcaInterval, config.dcaBuyRatio, config.feeRate));
    AddStrategy(e, NewHold(config.initialCash, config.holdBuyRatio, config.feeRate))
  }

  // ---------------------------------------------------------- maximum drawdown

  /** The running peak after point `j`: the largest of zero and the points up
      to `j`. */
  function PeakAt(h: seq<int>, j: nat): (p: int)
    requires j < |h|
    ensures p >= 0 && p >= h[j]
    ensures forall k :: 0 <= k <= j ==> p >= h[k]
    ensures p == 0 || exists k :: 0 <= k <= j && p == h[k]
  {
    var before := if j == 0 then 0 else PeakAt(h, j - 1);
    if h[j] > before then h[j] else before
  }

  /** The fall from the running peak at point `j`, as a fraction of the peak;
      nothing is measured while the peak is not positive. */
  function DrawdownAt(h: seq<int>, j: nat): real
    requires j < |h|
  {
    var p := PeakAt(h, j);
    if p > 0 then (p - h[j]) as real / p as real else 0.0
  }

  /** `m` is the largest drawdown over the first `n` points, or zero when
      there is none larger. */
  predicate IsMaxDrawdown(h: seq<int>, n: nat, m: real)
    requires n <= |h|
  {
    && m >= 0.0
    && (forall j :: 0 <= j < n ==> DrawdownAt(h, j) <= m)
    && (m == 0.0 || exists j :: 0 <= j < n && DrawdownAt(h, j) == m)
  }

  /** The drawdown loop: `peak` and `maxDD` are its running state before
      point `i`. */
  function MddLoop(h: seq<int>, i: nat, peak: int, maxDD: real): (m: real)
    requires i <= |h|
    requires peak == (if i == 0 then 0 else PeakAt(h, i - 1))
    requires IsMaxDrawdown(h, i, maxDD)
    ensures IsMaxDrawdown(h, |h|, m)
    decreases |h| - i
  {
    if i == |h| then maxDD
    else
      var equity := h[i];
      var peak' := if equity > peak then equity else peak;
      var maxDD' :=
        if peak' > 0 then
          var dd := (peak' - equity) as real / peak' as real;
          if dd > maxDD then dd else maxDD
        else maxDD;
      assert DrawdownAt(h, i) <= maxDD';
      MddLoop(h, i + 1, peak', maxDD')
  }

  /** Maximum drawdown of an equity curve, in percent. */
  function CalculateMdd(h: seq<int>): (r: real)
    ensures |h| == 0 ==> r == 0.0
    ensures r >= 0.0
    ensures forall j :: 0 <= j < |h| ==> 100.0 * DrawdownAt(h, j) <= r
    ensures r == 0.0 || exists j :: 0 <= j < |h| && r == 100.0 * DrawdownAt(h, j)
  {
    if |h| == 0 then 0.0 else MddLoop(h, 0, 0, 0.0) * 100.0
  }

  predicate NonDecreasing(h: seq<int>) {
    forall i, j :: 0 <= i <= j < |h| ==> h[i] <= h[j]
  }

  /** A curve that never falls has no drawdown. */
  lemma MddOfNonDecreasingIsZero(h: seq<int>)
    requires NonDecreasing(h)
    ensures CalculateMdd(h) == 0.0
  {
    forall j | 0 <= j < |h|
      ensures DrawdownAt(h, j) == 0.0
    {
      var p := PeakAt(h, j);
      if p > 0 {
        var k :| 0 <= k <= j && p == h[k];
        assert h[k] <= h[j];
      }
    }
  }

  /** On a curve without negative points the drawdown is at most 100 percent. */
  lemma MddAtMostHundred(h: seq<int>)
    requires forall i :: 0 <= i < |h| ==> h[i] >= 0
    ensures 0.0 <= CalculateMdd(h) <= 100.0
  {
    forall j | 0 <= j < |h|
      ensures DrawdownAt(h, j) <= 1.0
    {
      var p := PeakAt(h, j);
      if p > 0 {
        FractionAtMostOne(p - h[j], p);
      }
    }
  }

  lemma FractionAtMostOne(a: int, b: int)
    requires 0 <= a <= b && 0 < b
    ensures a as real / b as real <= 1.0
  {
    assert a as real / b as real * b as real == a as real;
  }

  // ------------------------------------------------------------------ reports

  /** Total return in percent of the starting cash. */
  function TotalReturn(finalEquity: int, initialCash: int): (r: real)
    requires initialCash != 0
    ensures r * initialCash as real == (finalEquity - initialCash) as real * 100.0
    ensures initialCash > 0 ==> (r > 0.0 <==> finalEquity > initialCash) && (r == 0.0 <==> finalEquity == initialCash)
  {
    (finalEquity - initialCash) as real / initialCash as real * 100.0
  }

  /** The report of a finished strategy at the last price: its final value,
      its return against the configured starting cash, the drawdown of its
      equity curve, and its counters and holding as they stand. */
  function BuildReport(config: Config, s: Strategy, lastPrice: int): (r: Report)
    requires config.initialCash != 0
    ensures r.name == s.name && r.initialCash == config.initialCash
    ensures r.finalEquity == s.ledger.cash + s.ledger.shares * lastPrice
    ensures r.totalReturn * config.initialCash as real == (r.finalEquity - config.initialCash) as real * 100.0
    ensures r.maxDrawdown == CalculateMdd(s.ledger.equity)
    ensures r.buyCount == s.ledger.buyCount && r.sellCount == s.ledger.sellCount
    ensures r.finalShares == s.ledger.shares && r.avgPrice == s.ledger.avgPrice
  {
    var finalEquity := TotalValue(s.ledger, lastPrice);
    Report(
      s.name,
      config.initialCash,
      finalEquity,
      TotalReturn(finalEquity, config.initialCash),
      CalculateMdd(s.ledger.equity),
      s.ledger.buyCount,
      s.ledger.sellCount,
      s.ledger.shares,
      s.ledger.avgPrice)
  }

  // ------------------------------------------------------------------- replay

  predicate AllWellFormed(ss: seq<Strategy>) {
    forall k :: 0 <= k < |ss| ==> WellFormed(ss[k])
  }

  /** One tick of the replay: every strategy, in registration order, sees
      the same index and price. */
  method TickAll(ss: seq<Strategy>, idx: nat, price: int) returns (ts: seq<Strategy>)
    requires price > 0 && AllWellFormed(ss)
    ensures |ts| == |ss|
    ensures forall k :: 0 <= k < |ss| ==> ts[k] == OnPrice(ss[k], idx, price)
  {
    ts := ss;
    var j := 0;
    while j < |ts|
      invariant 0 <= j <= |ts| == |ss|
      invariant forall k :: 0 <= k < j ==> ts[k] == OnPrice(ss[k], idx, price)
      invariant forall k :: j <= k < |ts| ==> ts[k] == ss[k]
    {
      ts := ts[j := OnPrice(ts[j], idx, price)];
      j := j + 1;
    }
  }

  /** The reports of the finished strategies at the last price, in order. */
  function Reports(config: Config, ss: seq<Strategy>, lastPrice: int): (rs: seq<Report>)
    requires config.initialCash != 0
    ensures |rs| == |ss|
    ensures forall k :: 0 <= k < |ss| ==> rs[k] == BuildReport(config, ss[k], lastPrice)
  {
    seq(|ss|, k requires 0 <= k < |ss| => BuildReport(config, ss[k], lastPrice))
  }

  /** Replays the price series: for each tick in order, every strategy in
      registration order sees the tick; then one report per strategy is
      appended, in registration order. An empty series changes nothing. */
  method RunBattle(e: Engine, prices: seq<int>) returns (r: Engine)
    requires AllPositive(prices) && AllWellFormed(e.strategies)
    requires |prices| > 0 ==> e.config.initialCash != 0
    ensures |prices| == 0 ==> r == e
    ensures r.config == e.config && |r.strategies| == |e.strategies|
    ensures |prices| > 0 ==> forall k :: 0 <= k < |e.strategies| ==> r.strategies[k] == Run(e.strategies[k], prices)
    ensures |prices| > 0 ==> r.results == e.results + Reports(e.config, r.strategies, prices[|prices| - 1])
  {
    if |prices| == 0 {
      return e;
    }
    var strategies := e.strategies;
    var i := 0;
    while i < |prices|
      invariant 0 <= i <= |prices|
      invariant |strategies| == |e.strategies|
      invariant forall k :: 0 <= k < |strategies| ==> strategies[k] == Run(e.strategies[k], prices[..i])
    {
      forall k | 0 <= k < |strategies|
        ensures WellFormed(strategies[k])
        ensures Run(e.strategies[k], prices[..i + 1]) == OnPrice(strategies[k], i, prices[i])
      {
        RunStepsInOrder(e.strategies[k], prices, i);
      }
      strategies := TickAll(strategies, i, prices[i]);
      i := i + 1;
    }
    assert prices[..|prices|] == prices;
    r := Engine(e.config, strategies, e.results + Reports(e.config, strategies, prices[|prices| - 1]));
  }

  /** After a replay of a non-empty series, every strategy's equity curve has
      one point per tick and its report's final equity is the curve's last
      point. */
  lemma RunBattleRecordsEveryTick(e: Engine, prices: seq<int>, r: Engine, k: nat)
    requires AllPositive(prices) && AllWellFormed(e.strategies) && e.config.initialCash != 0
    requires |prices| > 0 && k < |e.strategies| && e.strategies[k].ledger.equity == []
    requires |r.strategies| == |e.strategies| && |r.results| == |e.results| + |e.strategies|
    requires r.strategies[k] == Run(e.strategies[k], prices)
    requires r.results[|e.results| + k] == BuildReport(e.config, r.strategies[k], prices[|prices| - 1])
    ensures |r.strategies[k].ledger.equity| == |prices|
    ensures r.results[|e.results| + k].finalEquity == r.strategies[k].ledger.equity[|prices| - 1]
  {
    RunExtendsEquity(e.strategies[k], prices);
    LastEquityIsFinalValue(e.strategies[k], prices);
  }

  /** For a strategy that starts without debt and pays a fee rate of at most
      one, the drawdown its report carries lies between 0 and 100 percent. */
  lemma RunDrawdownWithinHundred(s: Strategy, prices: seq<int>)
    requires WellFormed(s) && AllPositive(prices) && s.kind.feeRate <= 1.0 && Sound(s.ledger)
    ensures 0.0 <= CalculateMdd(Run(s, prices).ledger.equity) <= 100.0
  {
    RunKeepsSound(s, prices);
    MddAtMostHundred(Run(s, prices).ledger.equity);
  }
}

=== FILE: ledger.dfy ===
/** The position ledger every trading strategy carries: cash, whole shares, a
    truncated weighted-average purchase price, the equity curve and the trade
    counters. These are the protected members of `TradingStrategy` and the
    three operations on them. */
module Ledger {
  import opened Numeric

  datatype Ledger = Ledger(
    cash: int,
    shares: nat,
    avgPrice: int,
    equity: seq<int>,
    buyCount: nat,
    sellCount: nat)

  /** A fresh ledger: all cash, no position, no history. */
  function Open(initialCash: int): (l: Ledger)
    ensures Fresh(l) && l.cash == initialCash
  {
    Ledger(initialCash, 0, 0, [], 0, 0)
  }

  predicate Fresh(l: Ledger) {
    l.shares == 0 && l.avgPrice == 0 && l.equity == [] && l.buyCount == 0 && l.sellCount == 0
  }

  /** The brokerage fee on a trade of the given notional: the notional scaled by
      the fee rate, truncated by the cast to `long`. */
  function Fee(notional: int, feeRate: real): int {
    Trunc(notional as real * feeRate)
  }

  /** On a non-negative notional and rate the fee is non-negative, never more
      than the exact fee, and, for a rate of at most one, never more than the
      notional. */
  lemma FeeBounds(notional: int, feeRate: real)
    requires 0 <= notional && 0.0 <= feeRate
    ensures 0 <= Fee(notional, feeRate)
    ensures Fee(notional, feeRate) as real <= notional as real * feeRate
    ensures feeRate <= 1.0 ==> Fee(notional, feeRate) <= notional
  {
    assert 0.0 <= notional as real * feeRate by {
      NonNegativeProduct(notional as real, feeRate);
    }
    if feeRate <= 1.0 {
      TruncFractionBounds(notional, feeRate);
    }
  }

  lemma NonNegativeProduct(x: real, y: real)
    requires 0.0 <= x && 0.0 <= y
    ensures 0.0 <= x * y
  {
  }

  /** Mark-to-market value at the given price. */
  function TotalValue(l: Ledger, price: int): (v: int)
    ensures l.shares == 0 ==> v == l.cash
    ensures price >= 0 ==> v >= l.cash
  {
    l.cash + l.shares * price
  }

  /** True when the ledger can pay for `qty` shares at `price` including the fee. */
  predicate CanBuy(l: Ledger, price: int, qty: int, feeRate: real): (b: bool)
    ensures b ==> qty > 0
    ensures b && 0 <= price && 0.0 <= feeRate ==> price * qty <= l.cash
  {
    qty > 0 && l.cash >= price * qty + Fee(price * qty, feeRate)
  }

  /** Buys `qty` shares at `price`. The fee is paid in cash but left out of the
      average price. A trade the ledger cannot pay for, or a quantity that is
      not positive, leaves the ledger as it was. */
  function Buy(l: Ledger, price: int, qty: int, feeRate: real): (r: Ledger)
    ensures !CanBuy(l, price, qty, feeRate) ==> r == l
    ensures CanBuy(l, price, qty, feeRate) ==>
      && r.cash == l.cash - price * qty - Fee(price * qty, feeRate)
      && r.shares == l.shares + qty
      && r.buyCount == l.buyCount + 1
      && r.sellCount == l.sellCount
      && r.equity == l.equity
    // the new average, times the new holding, is the old cost basis plus the
    // notional, up to a remainder smaller than one price unit per share
    ensures CanBuy(l, price, qty, feeRate) && l.avgPrice * l.shares + price * qty >= 0 ==>
      0 <= l.avgPrice * l.shares + price * qty - r.avgPrice * r.shares < r.shares
  {
    var cost := price * qty;
    var fee := Fee(cost, feeRate);
    if l.cash >= cost + fee && qty > 0 then
      var totalCost := l.avgPrice * l.shares + cost;
      var shares := l.shares + qty;
      l.(shares := shares,
         avgPrice := CDiv(totalCost, shares),
         cash := l.cash - (cost + fee),
         buyCount := l.buyCount + 1)
    else
      l
  }

  /** Sells the whole holding at `price`, paying the truncated fee out of the
      proceeds. An empty holding leaves the ledger as it was. */
  function SellAll(l: Ledger, price: int, feeRate: real): (r: Ledger)
    ensures l.shares == 0 ==> r == l
    ensures l.shares > 0 ==>
      && r.cash == l.cash + price * l.shares - Fee(price * l.shares, feeRate)
      && r.shares == 0
      && r.avgPrice == 0
      && r.sellCount == l.sellCount + 1
      && r.buyCount == l.buyCount
      && r.equity == l.equity
  {
    if l.shares > 0 then
      var revenue := price * l.shares;
      var fee := Fee(revenue, feeRate);
      l.(cash := l.cash + (revenue - fee), shares := 0, avgPrice := 0, sellCount := l.sellCount + 1)
    else
      l
  }

  /** Appends the value at `price` to the equity curve. */
  function RecordEquity(l: Ledger, price: int): (r: Ledger)
    ensures |r.equity| == |l.equity| + 1
    ensures r.equity[..|l.equity|] == l.equity
    ensures r.equity[|l.equity|] == r.cash + r.shares * price
    ensures r.(equity := l.equity) == l
  {
    l.(equity := l.equity + [TotalValue(l, price)])
  }

  /** What stays true of a ledger in any run over positive prices with a fee
      rate between zero and one: no debt, a non-negative average price that is
      zero whenever nothing is held, and a non-negative equity curve. */
  predicate Sound(l: Ledger) {
    && l.cash >= 0
    && l.avgPrice >= 0
    && (l.shares == 0 ==> l.avgPrice == 0)
    && forall i :: 0 <= i < |l.equity| ==> l.equity[i] >= 0
  }

  lemma {:induction false} BuyKeepsSound(l: Ledger, price: int, qty: int, feeRate: real)
    requires Sound(l) && price >= 0
    ensures Sound(Buy(l, price, qty, feeRate))
  {
    if CanBuy(l, price, qty, feeRate) {
      var r := Buy(l, price, qty, feeRate);
      assert l.avgPrice * l.shares >= 0 && price * qty >= 0;
      var total := l.avgPrice * l.shares + price * qty;
      assert r.avgPrice == CDiv(total, r.shares);
      CDivNonNegative(total, r.shares);
    }
  }

  lemma {:induction false} SellAllKeepsSound(l: Ledger, price: int, feeRate: real)
    requires Sound(l) && price >= 0 && 0.0 <= feeRate <= 1.0
    ensures Sound(SellAll(l, price, feeRate))
  {
    if l.shares > 0 {
      var revenue := price * l.shares;
      assert revenue >= 0;
      FeeBounds(revenue, feeRate);
      assert SellAll(l, price, feeRate).cash == l.cash + revenue - Fee(revenue, feeRate);
    }
  }

  lemma {:induction false} RecordEquityKeepsSound(l: Ledger, price: int)
    requires Sound(l) && price >= 0
    ensures Sound(RecordEquity(l, price))
  {
    var r := RecordEquity(l, price);
    assert l.shares * price >= 0;
    forall i | 0 <= i < |r.equity|
      ensures r.equity[i] >= 0
    {
      if i < |l.equity| {
        assert r.equity[i] == r.equity[..|l.equity|][i];
      }
    }
  }

  /** Trading at the tick's own price moves the mark-to-market value by the fee
      alone: a buy turns cash into shares worth exactly what was paid for them. */
  lemma BuyCostsOnlyTheFee(l: Ledger, price: int, qty: int, feeRate: real)
    requires CanBuy(l, price, qty, feeRate)
    ensures TotalValue(Buy(l, price, qty, feeRate), price) == TotalValue(l, price) - Fee(price * qty, feeRate)
  {
    var r := Buy(l, price, qty, feeRate);
    assert r.shares * price == l.shares * price + qty * price;
  }

  /** ... and so does a sale of the whole holding. */
  lemma SellAllCostsOnlyTheFee(l: Ledger, price: int, feeRate: real)
    ensures TotalValue(SellAll(l, price, feeRate), price) == TotalValue(l, price) - Fee(price * l.shares, feeRate)
  {
  }

  /** Buying into an empty position records the purchase price itself. */
  lemma BuyIntoEmptyRecordsPrice(l: Ledger, price: int, qty: int, feeRate: real)
    requires l.shares == 0 && price >= 0
    requires CanBuy(l, price, qty, feeRate)
    ensures Buy(l, price, qty, feeRate).avgPrice == price
  {
    var a := Buy(l, price, qty, feeRate).avgPrice;
    assert l.avgPrice * l.shares == 0;
    assert (price - a) * qty == price * qty - a * qty;
    OnlyZeroFitsBelow(price - a, qty);
  }

  /** A buy moves the average price toward the price paid: it ends up between
      the old average and the purchase price. */
  lemma BuyAverageBetween(l: Ledger, price: int, qty: int, feeRate: real)
    requires Sound(l) && price >= 0
    requires CanBuy(l, price, qty, feeRate)
    ensures var a := Buy(l, price, qty, feeRate).avgPrice;
            (l.avgPrice <= price ==> l.avgPrice <= a <= price)
            && (price <= l.avgPrice ==> price <= a <= l.avgPrice)
  {
    assert l.avgPrice * l.shares >= 0 && price * qty >= 0;
    var r := Buy(l, price, qty, feeRate);
    WeightedAverageBetween(l.avgPrice, l.shares, price, qty, r.avgPrice);
  }

  /** A truncated weighted average of two values lies between them. */
  lemma WeightedAverageBetween(x: int, m: nat, y: int, k: nat, a: int)
    requires k > 0
    requires 0 <= x * m + y * k - a * (m + k) < m + k
    ensures x <= y ==> x <= a <= y
    ensures y <= x ==> y <= a <= x
  {
    var n := m + k;
    var total := x * m + y * k;
    var lo := if x <= y then x else y;
    var hi := if x <= y then y else x;
    MulMonotone(lo, x, m);
    MulMonotone(x, hi, m);
    MulMonotone(lo, y, k);
    MulMonotone(y, hi, k);
    assert lo * n == lo * m + lo * k;
    assert hi * n == hi * m + hi * k;
    assert (a + 1) * n == a * n + n;
    assert (hi + 1) * n == hi * n + n;
    if a < lo {
      MulMonotone(a + 1, lo, n);
    }
    if a > hi {
      MulMonotone(hi + 1, a, n);
    }
  }

  lemma MulMonotone(x: int, y: int, n: nat)
    requires x <= y
    ensures x * n <= y * n
  {
    assert y * n - x * n == (y - x) * n;
  }

  /** The only multiple of a positive `n` in `[0, n)` is zero. */
  lemma OnlyZeroFitsBelow(k: int, n: int)
    requires 0 < n && 0 <= k * n < n
    ensures k == 0
  {
    if k >= 1 {
      MulMonotone(1, k, n);
    } else if k <= -1 {
      MulMonotone(k, -1, n);
    }
  }
}

=== FILE: numeric.dfy ===
/** C++ arithmetic the backtester relies on, written out over unbounded integers
    and exact reals.

    The source keeps rates in `double` and converts with C-style casts, which
    truncate toward zero; its integer `/` also truncates toward zero. Dafny's
    `/` on `int` is Euclidean and its `real` is exact, so both conversions are
    spelled out here once and used everywhere else. */
module Numeric {

  function Abs(x: int): int {
    if x < 0 then -x else x
  }

  /** A cast of a double to an integer type: the fraction is dropped, so the
      result moves toward zero. */
  function Trunc(x: real): (r: int)
    ensures 0.0 <= x ==> r as real <= x < r as real + 1.0
    ensures x < 0.0 ==> r as real - 1.0 < x <= r as real
  {
    if x >= 0.0 then x.Floor else -((-x).Floor)
  }

  /** Integer division of C++: the quotient is truncated toward zero, so the
      remainder takes the sign of the dividend. */
  function CDiv(a: int, b: int): (q: int)
    requires b != 0
    ensures 0 <= a ==> 0 <= a - q * b < Abs(b)
    ensures a < 0 ==> -Abs(b) < a - q * b <= 0
  {
    var q := if (a < 0) == (b < 0) then Abs(a) / Abs(b) else -(Abs(a) / Abs(b));
    TruncatedRemainder(a, b, q);
    q
  }

  /** The quotient of the magnitudes, signed by the operands, leaves a remainder
      with the sign of the dividend. */
  lemma TruncatedRemainder(a: int, b: int, q: int)
    requires b != 0
    requires q == (if (a < 0) == (b < 0) then Abs(a) / Abs(b) else -(Abs(a) / Abs(b)))
    ensures 0 <= a ==> 0 <= a - q * b < Abs(b)
    ensures a < 0 ==> -Abs(b) < a - q * b <= 0
  {
    var n, d := Abs(a), Abs(b);
    var m := n / d;
    assert 0 <= n - m * d < d;
    if a >= 0 && b > 0 {
    } else if a >= 0 {
      assert q * b == (-m) * (-d) == m * d;
    } else if b > 0 {
      assert q * b == (-m) * d == -(m * d);
    } else {
      assert q * b == m * (-d) == -(m * d);
    }
  }

  /** On non-negative operands the truncating and the Euclidean quotient agree. */
  lemma CDivNonNegative(a: int, b: int)
    requires 0 <= a && 0 < b
    ensures CDiv(a, b) == a / b
    ensures 0 <= CDiv(a, b)
  {
    var q := CDiv(a, b);
    assert q == Abs(a) / Abs(b);
    assert Abs(a) == a && Abs(b) == b;
    assert q == a / b;
    ProductSign(q, b);
  }

  /** A negative multiple of a positive number is at most minus that number. */
  lemma ProductSign(x: int, b: int)
    requires b > 0
    ensures x < 0 ==> x * b <= -b
  {
  }

  /** A non-negative quotient brackets the dividend between two consecutive
      multiples of the divisor. */
  lemma CDivBrackets(a: int, b: int)
    requires 0 <= a && 0 < b
    ensures 0 <= CDiv(a, b)
    ensures CDiv(a, b) * b <= a < (CDiv(a, b) + 1) * b
  {
    var q := CDiv(a, b);
    CDivNonNegative(a, b);
    assert Abs(b) == b;
    assert 0 <= a - q * b < b;
    assert (q + 1) * b == q * b + b;
  }

  /** A truncated fraction of a non-negative amount never exceeds the amount
      when the fraction is at most one. */
  lemma TruncFractionBounds(x: int, f: real)
    requires 0 <= x
    requires 0.0 <= f <= 1.0
    ensures 0 <= Trunc(x as real * f) <= x
  {
    assert x as real * f <= x as real * 1.0;
  }
}

=== FILE: reporting.dfy ===
/** The analysis of finished reports: the ranking by total return, and the
    closing comment that compares the dollar-cost-averaging habit with the
    panic-selling one. */
module Reporting {
  import opened Engine

  // ------------------------------------------------------------------ ranking

  /** Best return first. */
  predicate RankedByReturn(rs: seq<Report>) {
    forall i, j :: 0 <= i < j < |rs| ==> rs[i].totalReturn >= rs[j].totalReturn
  }

  /** The reports with return `v`, in their order in `rs`. */
  function WithReturn(rs: seq<Report>, v: real): (f: seq<Report>)
    ensures |f| <= |rs|
  {
    if |rs| == 0 then []
    else (if rs[0].totalReturn == v then [rs[0]] else []) + WithReturn(rs[1..], v)
  }

  lemma {:induction false} WithReturnConcat(a: seq<Report>, b: seq<Report>, v: real)
    ensures WithReturn(a + b, v) == WithReturn(a, v) + WithReturn(b, v)
    decreases |a|
  {
    if |a| > 0 {
      assert (a + b)[0] == a[0];
      assert (a + b)[1..] == a[1..] + b;
      WithReturnConcat(a[1..], b, v);
    } else {
      assert a + b == b;
    }
  }

  /** Exchanging two neighbours with different returns changes no report's
      position among those with the same return. */
  lemma SwapKeepsTies(s: seq<Report>, j: nat, v: real)
    requires j + 1 < |s| && s[j].totalReturn != s[j + 1].totalReturn
    ensures WithReturn(s[j := s[j + 1]][j + 1 := s[j]], v) == WithReturn(s, v)
  {
    var t := s[j := s[j + 1]][j + 1 := s[j]];
    var pre, post := s[..j], s[j + 2..];
    assert s == pre + [s[j], s[j + 1]] + post;
    assert t == pre + [s[j + 1], s[j]] + post;
    WithReturnConcat(pre + [s[j], s[j + 1]], post, v);
    WithReturnConcat(pre, [s[j], s[j + 1]], v);
    WithReturnConcat(pre + [s[j + 1], s[j]], post, v);
    WithReturnConcat(pre, [s[j + 1], s[j]], v);
    assert [s[j], s[j + 1]][1..] == [s[j + 1]];
    assert [s[j + 1], s[j]][1..] == [s[j]];
  }

  /** Every report before position `j` has a return at least that of the
      report at `j`. */
  predicate NoneBelowBefore(s: seq<Report>, j: nat)
    requires j < |s|
  {
    forall a :: 0 <= a < j ==> s[a].totalReturn >= s[j].totalReturn
  }

  /** Every report before position `k` has a return at least that of every
      report from `k` on. */
  predicate SplitAt(s: seq<Report>, k: nat) {
    forall a, b :: 0 <= a < k <= b < |s| ==> s[a].totalReturn >= s[b].totalReturn
  }

  /** Exchanging neighbours rearranges the reports without adding or losing any. */
  lemma SwapKeepsReports(s: seq<Report>, j: nat)
    requires j + 1 < |s|
    ensures multiset(s[j := s[j + 1]][j + 1 := s[j]]) == multiset(s)
  {
    var t := s[j := s[j + 1]][j + 1 := s[j]];
    var pre, post := s[..j], s[j + 2..];
    assert s == pre + [s[j], s[j + 1]] + post;
    assert t == pre + [s[j + 1], s[j]] + post;
    assert multiset([s[j], s[j + 1]]) == multiset([s[j + 1], s[j]]);
    calc {
      multiset(t);
      multiset(pre) + multiset([s[j + 1], s[j]]) + multiset(post);
      multiset(pre) + multiset([s[j], s[j + 1]]) + multiset(post);
      multiset(s);
    }
  }

  /** Exchanging neighbours at `j` when the later has the higher return keeps
      the lower one moving toward `last` and keeps the split after `last`. */
  lemma SwapSinksLower(t: seq<Report>, j: nat, last: nat)
    requires j < last < |t| && t[j].totalReturn < t[j + 1].totalReturn
    requires NoneBelowBefore(t, j)
    ensures var t' := t[j := t[j + 1]][j + 1 := t[j]];
            && NoneBelowBefore(t', j + 1)
            && (SplitAt(t, last + 1) ==> SplitAt(t', last + 1))
  {
  }

  /** One pass of the bubble sort over positions `0 .. last`: it sinks the
      lowest return among them to position `last`, touches nothing beyond,
      and moves only reports of different returns past each other. */
  method BubblePass(s: seq<Report>, last: nat) returns (t: seq<Report>)
    requires last < |s|
    ensures |t| == |s| && multiset(t) == multiset(s)
    ensures forall v :: WithReturn(t, v) == WithReturn(s, v)
    ensures forall b :: last < b < |s| ==> t[b] == s[b]
    ensures SplitAt(s, last + 1) ==> SplitAt(t, last + 1)
    ensures NoneBelowBefore(t, last)
    ensures RankedByReturn(s) ==> t == s
  {
    t := s;
    var j := 0;
    while j < last
      invariant 0 <= j <= last && |t| == |s|
      invariant multiset(t) == multiset(s)
      invariant forall v :: WithReturn(t, v) == WithReturn(s, v)
      invariant forall b :: last < b < |s| ==> t[b] == s[b]
      invariant SplitAt(s, last + 1) ==> SplitAt(t, last + 1)
      invariant RankedByReturn(s) ==> t == s
      invariant NoneBelowBefore(t, j)
    {
      if t[j].totalReturn < t[j + 1].totalReturn {
        var t' := t[j := t[j + 1]][j + 1 := t[j]];
        forall v
          ensures WithReturn(t', v) == WithReturn(s, v)
        {
          SwapKeepsTies(t, j, v);
        }
        SwapKeepsReports(t, j);
        SwapSinksLower(t, j, last);
        t := t';
      }
      j := j + 1;
    }
  }

  /** The bubble-sort ranking: neighbours are exchanged only when the later
      one has a strictly higher return. The result is a rearrangement of the
      reports, best return first, with reports of equal return left in their
      original order, and an already ranked list comes back unchanged. */
  method Rank(results: seq<Report>) returns (ranked: seq<Report>)
    ensures |ranked| == |results| && multiset(ranked) == multiset(results)
    ensures RankedByReturn(ranked)
    ensures forall v :: WithReturn(ranked, v) == WithReturn(results, v)
    ensures RankedByReturn(results) ==> ranked == results
  {
    ranked := results;
    var n := |ranked|;
    var i := 0;
    while i < n
      invariant 0 <= i <= n == |ranked|
      invariant multiset(ranked) == multiset(results)
      invariant forall v :: WithReturn(ranked, v) == WithReturn(results, v)
      invariant RankedByReturn(results) ==> ranked == results
      invariant SplitAt(ranked, n - i)
      invariant forall a, b :: n - i <= a < b < n ==> ranked[a].totalReturn >= ranked[b].totalReturn
    {
      ranked := BubblePass(ranked, n - 1 - i);
      i := i + 1;
    }
  }

  // ---------------------------------------------------------- closing comment

  /** The outcomes of the closing comment; the winning template carries the
      margin in percentage points that it prints. */
  datatype Comment =
    | InsufficientResults
    | NoComparableStrategy
    | DcaAhead(margin: real)
    | PanicAhead

  const PanicTag: string := "쫄보"
  const DcaTag: string := "코치"

  /** Substring search: `needle` starts at some position of `s`. */
  predicate Contains(s: string, needle: string): (b: bool)
    ensures needle <= s ==> b
    ensures |s| < |needle| ==> !b
  {
    needle <= s || (|s| > 0 && Contains(s[1..], needle))
  }

  /** `needle` occurs in `s` starting at index `i`. */
  predicate OccursAt(s: string, needle: string, i: int) {
    0 <= i && i + |needle| <= |s| && s[i..i + |needle|] == needle
  }

  /** The search agrees with the plain definition of a substring: `needle`
      occurs at some index of `s`. */
  lemma ContainsAt(s: string, needle: string)
    ensures Contains(s, needle) <==> exists i :: OccursAt(s, needle, i)
  {
    if Contains(s, needle) {
      ContainsFindsOccurrence(s, needle);
    }
    if exists i :: OccursAt(s, needle, i) {
      var i :| OccursAt(s, needle, i);
      OccurrenceIsContained(s, needle, i);
    }
  }

  lemma {:induction false} ContainsFindsOccurrence(s: string, needle: string)
    requires Contains(s, needle)
    ensures exists i :: OccursAt(s, needle, i)
    decreases |s|
  {
    if needle <= s {
      assert s[0..|needle|] == needle;
      assert OccursAt(s, needle, 0);
    } else {
      ContainsFindsOccurrence(s[1..], needle);
      var j :| OccursAt(s[1..], needle, j);
      assert s[j + 1..j + 1 + |needle|] == s[1..][j..j + |needle|];
      assert OccursAt(s, needle, j + 1);
    }
  }

  lemma {:induction false} OccurrenceIsContained(s: string, needle: string, i: int)
    requires OccursAt(s, needle, i)
    ensures Contains(s, needle)
    decreases i
  {
    if i == 0 {
      assert needle == s[..|needle|];
    } else {
      assert s[1..][i - 1..i - 1 + |needle|] == s[i..i + |needle|];
      OccurrenceIsContained(s[1..], needle, i - 1);
    }
  }

  /** `k` is the last report whose name contains `tag`. */
  predicate IsLastNamed(rs: seq<Report>, tag: string, k: int) {
    && 0 <= k < |rs|
    && Contains(rs[k].name, tag)
    && forall m :: k < m < |rs| ==> !Contains(rs[m].name, tag)
  }

  /** At most one report is the last one whose name contains a tag. */
  lemma LastNamedIsUnique(rs: seq<Report>, tag: string, k: int)
    requires IsLastNamed(rs, tag, k)
    ensures forall j :: IsLastNamed(rs, tag, j) ==> j == k
  {
  }

  /** The search loop: scanning forward from `i`, every match overwrites the
      index found so far, so the last match wins; -1 stands for none. */
  function FindLast(rs: seq<Report>, tag: string, i: nat, found: int): (k: int)
    requires i <= |rs|
    requires -1 <= found < i
    requires found >= 0 ==> IsLastNamed(rs[..i], tag, found)
    requires found == -1 ==> forall m :: 0 <= m < i ==> !Contains(rs[m].name, tag)
    ensures k == -1 <==> forall m :: 0 <= m < |rs| ==> !Contains(rs[m].name, tag)
    ensures k != -1 ==> IsLastNamed(rs, tag, k)
    decreases |rs| - i
  {
    if i == |rs| then
      assert rs[..i] == rs;
      found
    else
      var found' := if Contains(rs[i].name, tag) then i else found;
      assert forall m :: 0 <= m < i ==> rs[..i + 1][m] == rs[..i][m];
      FindLast(rs, tag, i + 1, found')
  }

  /** No report's name contains `tag`. */
  predicate NoneNamed(rs: seq<Report>, tag: string) {
    forall m :: 0 <= m < |rs| ==> !Contains(rs[m].name, tag)
  }

  /** The whole search, from the first report with nothing found yet. */
  function LastNamed(rs: seq<Report>, tag: string): (k: int)
    ensures k == -1 <==> NoneNamed(rs, tag)
    ensures k != -1 ==> IsLastNamed(rs, tag, k)
  {
    FindLast(rs, tag, 0, -1)
  }

  /** The two templates, for the last panic-named report `p` and the last
      DCA-named report `d`: whichever pair of last-named reports is taken, the
      DCA template is chosen exactly when its return is strictly higher. */
  function Verdict(results: seq<Report>, p: int, d: int): (c: Comment)
    requires IsLastNamed(results, PanicTag, p) && IsLastNamed(results, DcaTag, d)
    ensures c.DcaAhead? || c == PanicAhead
    ensures forall p', d' :: IsLastNamed(results, PanicTag, p') && IsLastNamed(results, DcaTag, d') ==>
      var diff := results[d'].totalReturn - results[p'].totalReturn;
      (c.DcaAhead? <==> diff > 0.0) && (c.DcaAhead? ==> c.margin == diff)
  {
    LastNamedIsUnique(results, PanicTag, p);
    LastNamedIsUnique(results, DcaTag, d);
    var diff := results[d].totalReturn - results[p].totalReturn;
    if diff > 0.0 then DcaAhead(diff) else PanicAhead
  }

  /** The closing comment: too few reports, no panic-named or no DCA-named
      report, or else the DCA template exactly when the DCA return beats the
      panic return, comparing the last report of each name. */
  function SummaryComment(results: seq<Report>): (c: Comment)
    ensures c == InsufficientResults <==> |results| < 2
    ensures c == NoComparableStrategy <==>
      |results| >= 2 && (NoneNamed(results, PanicTag) || NoneNamed(results, DcaTag))
    ensures forall p, d :: |results| >= 2 && IsLastNamed(results, PanicTag, p) && IsLastNamed(results, DcaTag, d) ==>
      var diff := results[d].totalReturn - results[p].totalReturn;
      (c.DcaAhead? <==> diff > 0.0) && (c.DcaAhead? ==> c.margin == diff) && (!c.DcaAhead? ==> c == PanicAhead)
  {
    if |results| < 2 then InsufficientResults
    else
      var panicIdx := LastNamed(results, PanicTag);
      var dcaIdx := LastNamed(results, DcaTag);
      if panicIdx == -1 || dcaIdx == -1 then NoComparableStrategy
      else Verdict(results, panicIdx, dcaIdx)
  }
}

=== FILE: runs.dfy ===
/** What holds of a strategy over a whole run of ticks: the equity curve gets
    exactly one point per tick, the single-shot habits trade at most once in
    each direction, dollar-cost averaging never sells, and a ledger with no
    debt stays without debt. */
module StrategyRuns {
  import opened Ledger
  import opened Strategies

  // ------------------------------------------------------------ equity curve

  /** A run only appends to the equity curve, one point per tick. */
  lemma {:induction false} RunExtendsEquity(s: Strategy, prices: seq<int>)
    requires WellFormed(s) && AllPositive(prices)
    ensures |Run(s, prices).ledger.equity| == |s.ledger.equity| + |prices|
    ensures Run(s, prices).ledger.equity[..|s.ledger.equity|] == s.ledger.equity
    decreases |prices|
  {
    if |prices| > 0 {
      var n := |prices| - 1;
      var m := |s.ledger.equity|;
      RunExtendsEquity(s, prices[..n]);
      var e := Run(s, prices[..n]).ledger.equity;
      var e' := Run(s, prices).ledger.equity;
      assert e'[..|e|] == e;
      assert e'[..m] == e'[..|e|][..m];
    }
  }

  /** Point `i` of the appended part is the value, at tick `i`'s price, of the
      ledger after tick `i`. */
  lemma {:induction false} RunRecordsEveryTick(s: Strategy, prices: seq<int>)
    requires WellFormed(s) && AllPositive(prices)
    ensures |Run(s, prices).ledger.equity| == |s.ledger.equity| + |prices|
    ensures forall i :: 0 <= i < |prices| ==>
      Run(s, prices).ledger.equity[|s.ledger.equity| + i] == TotalValue(Run(s, prices[..i + 1]).ledger, prices[i])
    decreases |prices|
  {
    RunExtendsEquity(s, prices);
    forall i | 0 <= i < |prices|
      ensures Run(s, prices).ledger.equity[|s.ledger.equity| + i] == TotalValue(Run(s, prices[..i + 1]).ledger, prices[i])
    {
      PointStaysRecorded(s, prices, i);
    }
  }

  lemma {:induction false} PointStaysRecorded(s: Strategy, prices: seq<int>, i: nat)
    requires WellFormed(s) && AllPositive(prices) && i < |prices|
    ensures |Run(s, prices).ledger.equity| == |s.ledger.equity| + |prices|
    ensures Run(s, prices).ledger.equity[|s.ledger.equity| + i] == TotalValue(Run(s, prices[..i + 1]).ledger, prices[i])
    decreases |prices|
  {
    RunExtendsEquity(s, prices);
    var n := |prices| - 1;
    var m := |s.ledger.equity|;
    var front := prices[..n];
    assert Run(s, prices) == OnPrice(Run(s, front), n, prices[n]);
    if i == n {
      assert prices[..i + 1] == prices;
      RunExtendsEquity(s, front);
    } else {
      PointStaysRecorded(s, front, i);
      assert front[..i + 1] == prices[..i + 1];
      var e := Run(s, front).ledger.equity;
      var e' := Run(s, prices).ledger.equity;
      assert e'[..|e|] == e;
      assert e'[m + i] == e'[..|e|][m + i];
    }
  }

  /** The last equity point of a non-empty run is the final ledger's value at
      the last price. */
  lemma LastEquityIsFinalValue(s: Strategy, prices: seq<int>)
    requires WellFormed(s) && AllPositive(prices) && |prices| > 0
    ensures var r := Run(s, prices);
            |r.ledger.equity| > 0 && r.ledger.equity[|r.ledger.equity| - 1] == TotalValue(r.ledger, prices[|prices| - 1])
  {
    var n := |prices| - 1;
    assert Run(s, prices) == OnPrice(Run(s, prices[..n]), n, prices[n]);
  }

  // ------------------------------------------------------------- panic sell

  /** The reachable states of a panic seller: one buy at most, a sale only
      after it, and no position or buy before the flag is set. */
  predicate PanicReachable(s: Strategy) {
    && s.kind.PanicSell?
    && s.ledger.buyCount <= 1
    && s.ledger.sellCount <= s.ledger.buyCount
    && (!s.kind.hasBought ==> s.ledger.buyCount == 0 && s.ledger.shares == 0)
    && (s.ledger.shares > 0 ==> s.ledger.buyCount == 1 && s.ledger.sellCount == 0)
  }

  lemma PanicStepKeepsReachable(s: Strategy, idx: int, price: int)
    requires WellFormed(s) && price > 0 && PanicReachable(s)
    ensures PanicReachable(OnPrice(s, idx, price))
  {
    var t := PanicSellAct(s, price);
    assert OnPrice(s, idx, price).ledger == RecordEquity(t.ledger, price);
    assert OnPrice(s, idx, price).kind == t.kind;
    if t.ledger.buyCount == s.ledger.buyCount + 1 {
      assert !s.kind.hasBought;
    }
  }

  /** Panic selling is single-shot: over a run from a fresh start it buys at
      most once and sells at most once, and never sells before buying. */
  lemma {:induction false} PanicSellSingleShot(s: Strategy, prices: seq<int>)
    requires WellFormed(s) && AllPositive(prices)
    requires s.kind.PanicSell? && !s.kind.hasBought && Fresh(s.ledger)
    ensures var r := Run(s, prices);
            r.ledger.buyCount <= 1 && r.ledger.sellCount <= r.ledger.buyCount
  {
    PanicRunKeepsReachable(s, prices);
  }

  lemma {:induction false} PanicRunKeepsReachable(s: Strategy, prices: seq<int>)
    requires WellFormed(s) && AllPositive(prices) && PanicReachable(s)
    ensures PanicReachable(Run(s, prices))
    decreases |prices|
  {
    if |prices| > 0 {
      var n := |prices| - 1;
      PanicRunKeepsReachable(s, prices[..n]);
      PanicStepKeepsReachable(Run(s, prices[..n]), n, prices[n]);
    }
  }

  /** Once the panic seller has entered, whether or not the ledger accepted the
      entry trade, it never buys again and stays entered. */
  lemma {:induction false} PanicNeverBuysAfterEntry(s: Strategy, prices: seq<int>)
    requires WellFormed(s) && AllPositive(prices)
    requires s.kind.PanicSell? && s.kind.hasBought
    ensures var r := Run(s, prices);
            r.kind.PanicSell? && r.kind.hasBought && r.ledger.buyCount == s.ledger.buyCount
    decreases |prices|
  {
    if |prices| > 0 {
      var n := |prices| - 1;
      PanicNeverBuysAfterEntry(s, prices[..n]);
      var before := Run(s, prices[..n]);
      var t := PanicSellAct(before, prices[n]);
      assert Run(s, prices).ledger.buyCount == t.ledger.buyCount;
      assert Run(s, prices).kind == t.kind;
    }
  }

  // ------------------------------------------------------------ buy and hold

  predicate HoldReachable(s: Strategy) {
    && s.kind.Hold?
    && s.ledger.buyCount <= 1
    && s.ledger.sellCount == 0
    && (!s.kind.hasBought ==> s.ledger.buyCount == 0)
  }

  lemma {:induction false} HoldRunKeepsReachable(s: Strategy, prices: seq<int>)
    requires WellFormed(s) && AllPositive(prices) && HoldReachable(s)
    ensures HoldReachable(Run(s, prices))
    decreases |prices|
  {
    if |prices| > 0 {
      var n := |prices| - 1;
      HoldRunKeepsReachable(s, prices[..n]);
      var before := Run(s, prices[..n]);
      var t := HoldAct(before, prices[n]);
      assert Run(s, prices).ledger == RecordEquity(t.ledger, prices[n]);
      assert Run(s, prices).kind == t.kind;
    }
  }

  /** Buy and hold buys at most once and never sells. */
  lemma {:induction false} HoldSingleShot(s: Strategy, prices: seq<int>)
    requires WellFormed(s) && AllPositive(prices)
    requires s.kind.Hold? && !s.kind.hasBought && Fresh(s.ledger)
    ensures var r := Run(s, prices);
            r.ledger.buyCount <= 1 && r.ledger.sellCount == 0
  {
    HoldRunKeepsReachable(s, prices);
  }

  /** Once buy and hold has bought, its holding and cash never change again. */
  lemma {:induction false} HoldIdleAfterBuy(s: Strategy, prices: seq<int>)
    requires WellFormed(s) && AllPositive(prices)
    requires s.kind.Hold? && s.kind.hasBought
    ensures var r := Run(s, prices);
            r.kind == s.kind && r.ledger.(equity := s.ledger.equity) == s.ledger
    decreases |prices|
  {
    if |prices| > 0 {
      var n := |prices| - 1;
      HoldIdleAfterBuy(s, prices[..n]);
    }
  }

  // --------------------------------------------------- dollar-cost averaging

  /** Dollar-cost averaging never sells: the sale count and the holding never
      go down over a run. */
  lemma {:induction false} DcaNeverSells(s: Strategy, prices: seq<int>)
    requires WellFormed(s) && AllPositive(prices) && s.kind.Dca?
    ensures var r := Run(s, prices);
            r.kind.Dca? && r.ledger.sellCount == s.ledger.sellCount && r.ledger.shares >= s.ledger.shares
    decreases |prices|
  {
    if |prices| > 0 {
      var n := |prices| - 1;
      DcaNeverSells(s, prices[..n]);
      var before := Run(s, prices[..n]);
      var t := DcaAct(before, n, prices[n]);
      assert Run(s, prices).ledger == RecordEquity(t.ledger, prices[n]);
    }
  }

  // ---------------------------------------------------------- no-debt ledger

  lemma ActKeepsSound(s: Strategy, idx: int, price: int)
    requires WellFormed(s) && price > 0 && s.kind.feeRate <= 1.0 && Sound(s.ledger)
    ensures Sound(Act(s, idx, price).ledger)
  {
    var l := s.ledger;
    var fee := s.kind.feeRate;
    forall qty: int
      ensures Sound(Buy(l, price, qty, fee))
    {
      BuyKeepsSound(l, price, qty, fee);
    }
    SellAllKeepsSound(l, price, fee);
  }

  /** With a fee rate of at most one, a ledger that starts without debt never
      goes into debt, its average price stays non-negative and zero while
      nothing is held, and every equity point is non-negative. */
  lemma {:induction false} RunKeepsSound(s: Strategy, prices: seq<int>)
    requires WellFormed(s) && AllPositive(prices) && s.kind.feeRate <= 1.0 && Sound(s.ledger)
    ensures Sound(Run(s, prices).ledger)
    decreases |prices|
  {
    if |prices| > 0 {
      var n := |prices| - 1;
      RunKeepsSound(s, prices[..n]);
      var before := Run(s, prices[..n]);
      RunKeepsFee(s, prices[..n]);
      ActKeepsSound(before, n, prices[n]);
      RecordEquityKeepsSound(Act(before, n, prices[n]).ledger, prices[n]);
    }
  }

  lemma {:induction false} RunKeepsFee(s: Strategy, prices: seq<int>)
    requires WellFormed(s) && AllPositive(prices)
    ensures Run(s, prices).kind.feeRate == s.kind.feeRate
    decreases |prices|
  {
    if |prices| > 0 {
      RunKeepsFee(s, prices[..|prices| - 1]);
    }
  }
}

=== FILE: scenarios.dfy ===
/** Worked runs of the habits on short price series, tick by tick, and the
    closing comment on the standard line-up. Each tick is its own lemma so that
    a run is a chain of small steps. */
module Scenarios {
  import opened Numeric
  import opened Ledger
  import opened Strategies
  import opened StrategyRuns
  import opened Engine
  import opened Reporting

  // ----------------------------------------------------------------- helpers

  /** An accepted buy, written as the updated ledger. */
  lemma BuyResult(l: Ledger, price: int, qty: int, feeRate: real, fee: int, avg: int)
    requires CanBuy(l, price, qty, feeRate) && Fee(price * qty, feeRate) == fee
    requires CDiv(l.avgPrice * l.shares + price * qty, l.shares + qty) == avg
    ensures Buy(l, price, qty, feeRate)
         == l.(cash := l.cash - price * qty - fee, shares := l.shares + qty, avgPrice := avg, buyCount := l.buyCount + 1)
  {
  }

  /** A sale of a non-empty holding, written as the updated ledger. */
  lemma SellAllResult(l: Ledger, price: int, feeRate: real, fee: int)
    requires l.shares > 0 && Fee(price * l.shares, feeRate) == fee
    ensures SellAll(l, price, feeRate)
         == l.(cash := l.cash + price * l.shares - fee, shares := 0, avgPrice := 0, sellCount := l.sellCount + 1)
  {
  }

  /** A run over one more tick is the shorter run followed by that tick. */
  lemma RunSnoc(s: Strategy, prices: seq<int>, p: int)
    requires WellFormed(s) && AllPositive(prices) && p > 0
    ensures AllPositive(prices + [p])
    ensures Run(s, prices + [p]) == OnPrice(Run(s, prices), |prices|, p)
  {
    var all := prices + [p];
    assert all[..|prices|] == prices;
    assert all[..|prices| + 1] == all;
    assert AllPositive(all) by {
      forall i | 0 <= i < |all|
        ensures all[i] > 0
      {
        if i < |prices| {
          assert all[i] == prices[i];
        }
      }
    }
    RunStepsInOrder(s, all, |prices|);
  }

  // -------------------------------------------------------------- panic sell

  /** No fee, a 10% stop-loss and 1000 in cash: at 100 the panic seller buys
      10 shares with all its cash. */
  lemma PanicTick0()
    ensures OnPrice(NewPanicSell(1000, -0.10, 0.0), 0, 100)
         == Strategy(PanicName, Ledger(0, 10, 100, [1000], 1, 0), PanicSell(-0.10, 0.0, true))
  {
    assert Trunc(100 as real * 0.0) == 0;
    assert CDiv(1000, 100) == 10;
    assert Affordable(1000, 100, 0.0) == 10;
    assert Fee(1000, 0.0) == 0;
    assert CDiv(1000, 10) == 100;
    BuyResult(Open(1000), 100, 10, 0.0, 0, 100);
  }

  /** At 90 the loss is exactly the 10% threshold, which the inclusive
      comparison counts: everything is sold. */
  lemma PanicTick1()
    ensures OnPrice(Strategy(PanicName, Ledger(0, 10, 100, [1000], 1, 0), PanicSell(-0.10, 0.0, true)), 1, 90)
         == Strategy(PanicName, Ledger(900, 0, 0, [1000, 900], 1, 1), PanicSell(-0.10, 0.0, true))
  {
    assert LossReached(Ledger(0, 10, 100, [1000], 1, 0), 90, -0.10);
    assert Fee(900, 0.0) == 0;
    SellAllResult(Ledger(0, 10, 100, [1000], 1, 0), 90, 0.0, 0);
  }

  /** With nothing held and the entry used up, a further fall changes nothing
      but the equity curve. */
  lemma PanicTick2()
    ensures OnPrice(Strategy(PanicName, Ledger(900, 0, 0, [1000, 900], 1, 1), PanicSell(-0.10, 0.0, true)), 2, 81)
         == Strategy(PanicName, Ledger(900, 0, 0, [1000, 900, 900], 1, 1), PanicSell(-0.10, 0.0, true))
  {
  }

  lemma PanicRun1()
    ensures Run(NewPanicSell(1000, -0.10, 0.0), [100])
         == Strategy(PanicName, Ledger(0, 10, 100, [1000], 1, 0), PanicSell(-0.10, 0.0, true))
  {
    RunSnoc(NewPanicSell(1000, -0.10, 0.0), [], 100);
    assert [] + [100] == [100];
    PanicTick0();
  }

  lemma PanicRun2()
    ensures Run(NewPanicSell(1000, -0.10, 0.0), [100, 90])
         == Strategy(PanicName, Ledger(900, 0, 0, [1000, 900], 1, 1), PanicSell(-0.10, 0.0, true))
  {
    RunSnoc(NewPanicSell(1000, -0.10, 0.0), [100], 90);
    assert [100] + [90] == [100, 90];
    PanicRun1();
    PanicTick1();
  }

  /** Over prices 100, 90, 81 the panic seller buys once, sells once on the
      first 10% loss, and sits on 900 in cash: the equity curve is 1000, 900,
      900. */
  lemma PanicSellOnTwoDrops()
    ensures Run(NewPanicSell(1000, -0.10, 0.0), [100, 90, 81])
         == Strategy(PanicName, Ledger(900, 0, 0, [1000, 900, 900], 1, 1), PanicSell(-0.10, 0.0, true))
  {
    RunSnoc(NewPanicSell(1000, -0.10, 0.0), [100, 90], 81);
    assert [100, 90] + [81] == [100, 90, 81];
    PanicRun2();
    PanicTick2();
  }

  /** With the default 0.015% fee, 10000 in cash and a price of 100, the
      per-share cost rounds down to 100, so the panic seller asks for 100
      shares; the fee of 1 on 10000 makes the ledger refuse the trade, yet the
      seller marks itself as entered. */
  lemma PanicEntryRefusedByFee()
    ensures OnPrice(NewPanicSell(10000, -0.10, 0.00015), 0, 100)
         == Strategy(PanicName, Ledger(10000, 0, 0, [10000], 0, 0), PanicSell(-0.10, 0.00015, true))
  {
    assert Trunc(100 as real * 0.00015) == 0;
    assert UnitCost(100, 0.00015) == 100;
    assert CDiv(10000, 100) == 100;
    assert Affordable(10000, 100, 0.00015) == 100;
    assert Fee(100 * 100, 0.00015) == 1;
    assert !CanBuy(Open(10000), 100, 100, 0.00015);
  }

  /** ... and after that refused entry it never buys, whatever the prices. */
  lemma PanicSellLockedOutByFee(later: seq<int>)
    requires AllPositive(later)
    ensures Run(OnPrice(NewPanicSell(10000, -0.10, 0.00015), 0, 100), later).ledger.buyCount == 0
  {
    PanicEntryRefusedByFee();
    PanicNeverBuysAfterEntry(OnPrice(NewPanicSell(10000, -0.10, 0.00015), 0, 100), later);
  }

  // ------------------------------------------------------------ buy and hold

  /** Buy and hold with ratio one half, 1000 in cash and no fee buys 5 shares
      at 100 on its first tick and keeps 500 idle. */
  lemma HoldTick0()
    ensures OnPrice(NewHold(1000, 0.5, 0.0), 0, 100)
         == Strategy(HoldName, Ledger(500, 5, 100, [1000], 1, 0), Hold(0.5, 0.0, true))
  {
    assert Trunc(1000 as real * 0.5) == 500;
    assert HoldBudget(1000, 0.5) == 500;
    assert Trunc(100 as real * 0.0) == 0;
    assert CDiv(500, 100) == 5;
    assert Affordable(500, 100, 0.0) == 5;
    assert Fee(500, 0.0) == 0;
    assert CDiv(500, 5) == 100;
    BuyResult(Open(1000), 100, 5, 0.0, 0, 100);
  }

  /** Once bought, a tick only marks the holding to market. */
  lemma HoldTick1()
    ensures OnPrice(Strategy(HoldName, Ledger(500, 5, 100, [1000], 1, 0), Hold(0.5, 0.0, true)), 1, 120)
         == Strategy(HoldName, Ledger(500, 5, 100, [1000, 1100], 1, 0), Hold(0.5, 0.0, true))
  {
    var s := Strategy(HoldName, Ledger(500, 5, 100, [1000], 1, 0), Hold(0.5, 0.0, true));
    assert HoldAct(s, 120) == s;
  }

  lemma HoldTick2()
    ensures OnPrice(Strategy(HoldName, Ledger(500, 5, 100, [1000, 1100], 1, 0), Hold(0.5, 0.0, true)), 2, 80)
         == Strategy(HoldName, Ledger(500, 5, 100, [1000, 1100, 900], 1, 0), Hold(0.5, 0.0, true))
  {
    var s := Strategy(HoldName, Ledger(500, 5, 100, [1000, 1100], 1, 0), Hold(0.5, 0.0, true));
    assert HoldAct(s, 80) == s;
  }

  lemma HoldRun1()
    ensures Run(NewHold(1000, 0.5, 0.0), [100])
         == Strategy(HoldName, Ledger(500, 5, 100, [1000], 1, 0), Hold(0.5, 0.0, true))
  {
    RunSnoc(NewHold(1000, 0.5, 0.0), [], 100);
    assert [] + [100] == [100];
    HoldTick0();
  }

  lemma HoldRun2()
    ensures Run(NewHold(1000, 0.5, 0.0), [100, 120])
         == Strategy(HoldName, Ledger(500, 5, 100, [1000, 1100], 1, 0), Hold(0.5, 0.0, true))
  {
    RunSnoc(NewHold(1000, 0.5, 0.0), [100], 120);
    assert [100] + [120] == [100, 120];
    HoldRun1();
    HoldTick1();
  }

  /** Over prices 100, 120, 80 buy and hold trades once and then only marks
      its 5 shares to market: the equity curve is 1000, 1100, 900. */
  lemma HoldThroughSwing()
    ensures Run(NewHold(1000, 0.5, 0.0), [100, 120, 80])
         == Strategy(HoldName, Ledger(500, 5, 100, [1000, 1100, 900], 1, 0), Hold(0.5, 0.0, true))
  {
    RunSnoc(NewHold(1000, 0.5, 0.0), [100, 120], 80);
    assert [100, 120] + [80] == [100, 120, 80];
    HoldRun2();
    HoldTick2();
  }

  // --------------------------------------------------- dollar-cost averaging

  /** Dollar-cost averaging with a 5% drop trigger, a 5-tick interval, a
      quarter of cash per buy and no fee buys 2 shares at 100 on its first
      tick: a quarter of 1000 pays for two. */
  lemma DcaTick0()
    ensures OnPrice(NewDca(1000, -0.05, 5, 0.25, 0.0), 0, 100)
         == Strategy(DcaName, Ledger(800, 2, 100, [1000], 1, 0), Dca(-0.05, 5, 0.25, 0.0, 0, 100))
  {
    assert Trunc(1000 as real * 0.25) == 250;
    assert DcaBudget(1000, 0.25, 100) == 250;
    assert Trunc(100 as real * 0.0) == 0;
    assert CDiv(250, 100) == 2;
    assert Affordable(250, 100, 0.0) == 2;
    assert Fee(200, 0.0) == 0;
    assert CDiv(200, 2) == 100;
    BuyResult(Open(1000), 100, 2, 0.0, 0, 100);
  }

  /** A 1% dip is neither the 5% drop nor the end of the interval: no trade. */
  lemma DcaTick1Waits()
    ensures OnPrice(Strategy(DcaName, Ledger(800, 2, 100, [1000], 1, 0), Dca(-0.05, 5, 0.25, 0.0, 0, 100)), 1, 99)
         == Strategy(DcaName, Ledger(800, 2, 100, [1000, 998], 1, 0), Dca(-0.05, 5, 0.25, 0.0, 0, 100))
  {
    assert !DropMet(Dca(-0.05, 5, 0.25, 0.0, 0, 100), 99);
  }

  /** A 6% fall from the last buy meets the drop trigger well before the
      interval: a quarter of the remaining 800 buys 2 more shares at 94, and
      the average price becomes 388 / 4. */
  lemma DcaTick1Drops()
    ensures OnPrice(Strategy(DcaName, Ledger(800, 2, 100, [1000], 1, 0), Dca(-0.05, 5, 0.25, 0.0, 0, 100)), 1, 94)
         == Strategy(DcaName, Ledger(612, 4, 97, [1000, 988], 2, 0), Dca(-0.05, 5, 0.25, 0.0, 1, 94))
  {
    assert DropMet(Dca(-0.05, 5, 0.25, 0.0, 0, 100), 94);
    assert Trunc(800 as real * 0.25) == 200;
    assert DcaBudget(800, 0.25, 94) == 200;
    assert Trunc(94 as real * 0.0) == 0;
    assert CDiv(200, 94) == 2;
    assert Affordable(200, 94, 0.0) == 2;
    assert Fee(188, 0.0) == 0;
    assert CDiv(388, 4) == 97;
    BuyResult(Ledger(800, 2, 100, [1000], 1, 0), 94, 2, 0.0, 0, 97);
  }

  /** Five ticks after the last buy the interval trigger fires even at an
      unchanged price. */
  lemma DcaIntervalTick()
    ensures OnPrice(Strategy(DcaName, Ledger(800, 2, 100, [1000, 1000, 1000, 1000, 1000], 1, 0), Dca(-0.05, 5, 0.25, 0.0, 0, 100)), 5, 100)
         == Strategy(DcaName, Ledger(600, 4, 100, [1000, 1000, 1000, 1000, 1000, 1000], 2, 0), Dca(-0.05, 5, 0.25, 0.0, 5, 100))
  {
    assert Trunc(800 as real * 0.25) == 200;
    assert DcaBudget(800, 0.25, 100) == 200;
    assert Trunc(100 as real * 0.0) == 0;
    assert CDiv(200, 100) == 2;
    assert Affordable(200, 100, 0.0) == 2;
    assert Fee(200, 0.0) == 0;
    assert CDiv(400, 4) == 100;
    BuyResult(Ledger(800, 2, 100, [1000, 1000, 1000, 1000, 1000], 1, 0), 100, 2, 0.0, 0, 100);
  }

  lemma DcaRun1()
    ensures Run(NewDca(1000, -0.05, 5, 0.25, 0.0), [100])
         == Strategy(DcaName, Ledger(800, 2, 100, [1000], 1, 0), Dca(-0.05, 5, 0.25, 0.0, 0, 100))
  {
    RunSnoc(NewDca(1000, -0.05, 5, 0.25, 0.0), [], 100);
    assert [] + [100] == [100];
    DcaTick0();
  }

  /** Over prices 100, 94 dollar-cost averaging buys on both ticks. */
  lemma DcaBuysAgainOnDrop()
    ensures Run(NewDca(1000, -0.05, 5, 0.25, 0.0), [100, 94])
         == Strategy(DcaName, Ledger(612, 4, 97, [1000, 988], 2, 0), Dca(-0.05, 5, 0.25, 0.0, 1, 94))
  {
    RunSnoc(NewDca(1000, -0.05, 5, 0.25, 0.0), [100], 94);
    assert [100] + [94] == [100, 94];
    DcaRun1();
    DcaTick1Drops();
  }

  /** Over prices 100, 99 it buys only on the first tick. */
  lemma DcaWaitsOnSmallDip()
    ensures Run(NewDca(1000, -0.05, 5, 0.25, 0.0), [100, 99])
         == Strategy(DcaName, Ledger(800, 2, 100, [1000, 998], 1, 0), Dca(-0.05, 5, 0.25, 0.0, 0, 100))
  {
    RunSnoc(NewDca(1000, -0.05, 5, 0.25, 0.0), [100], 99);
    assert [100] + [99] == [100, 99];
    DcaRun1();
    DcaTick1Waits();
  }

  // ------------------------------------------------------------------ names

  /** A needle whose first character does not occur is not contained. */
  lemma {:induction false} NotContained(s: string, needle: string)
    requires |needle| > 0 && forall i :: 0 <= i < |s| ==> s[i] != needle[0]
    ensures !Contains(s, needle)
    decreases |s|
  {
    if |s| > 0 {
      assert s[0] != needle[0];
      assert forall i :: 0 <= i < |s[1..]| ==> s[1..][i] == s[i + 1];
      NotContained(s[1..], needle);
    }
  }

  lemma PanicTagNamesPanicSeller()
    ensures Contains(PanicName, PanicTag)
  {
    assert PanicTag <= PanicName;
  }

  lemma DcaTagNamesDca()
    ensures Contains(DcaName, DcaTag)
  {
    assert DcaTag <= DcaName;
  }

  lemma OtherNamesLackPanicTag()
    ensures !Contains(DcaName, PanicTag) && !Contains(HoldName, PanicTag)
  {
    NotContained(DcaName, PanicTag);
    NotContained(HoldName, PanicTag);
  }

  lemma HoldNameLacksDcaTag()
    ensures !Contains(HoldName, DcaTag)
  {
    NotContained(HoldName, DcaTag);
  }

  /** The standard names: each tag occurs in its own strategy's name only, so
      the closing comment compares the panic seller with dollar-cost
      averaging. */
  lemma StandardNamesAreFound(rs: seq<Report>)
    requires |rs| == 3 && rs[0].name == PanicName && rs[1].name == DcaName && rs[2].name == HoldName
    ensures IsLastNamed(rs, PanicTag, 0) && IsLastNamed(rs, DcaTag, 1)
  {
    PanicTagNamesPanicSeller();
    DcaTagNamesDca();
    OtherNamesLackPanicTag();
    HoldNameLacksDcaTag();
    forall m | 0 < m < |rs|
      ensures !Contains(rs[m].name, PanicTag)
    {
      if m == 1 {
        assert rs[1].name == DcaName;
        assert !Contains(rs[1].name, PanicTag);
      } else {
        assert m == 2 && rs[2].name == HoldName;
        assert !Contains(rs[2].name, PanicTag);
      }
    }
    forall m | 1 < m < |rs|
      ensures !Contains(rs[m].name, DcaTag)
    {
      assert m == 2 && rs[2].name == HoldName;
    }
  }
}

=== FILE: strategies.dfy ===
/** The three per-tick trading habits: panic selling, dollar-cost averaging and
    buy-and-hold. Each is the common ledger plus a little memory of its own,
    advanced one price tick at a time by `OnPrice`, which always ends by
    appending the tick's equity point. */
module Strategies {
  import opened Numeric
  import opened Ledger

  /** The memory a variant keeps besides the ledger, and its parameters. */
  datatype Kind =
    | PanicSell(stopLossRate: real, feeRate: real, hasBought: bool)
    | Dca(dropRate: real, interval: int, buyRatio: real, feeRate: real, lastBuyIndex: int, lastBuyPrice: int)
    | Hold(initialBuyRatio: real, feeRate: real, hasBought: bool)

  datatype Strategy = Strategy(name: string, ledger: Ledger, kind: Kind)

  const PanicName: string := "쫄보 (Panic Seller)"
  const DcaName: string := "코치 (DCA)"
  const HoldName: string := "존버 (Holder)"

  function NewPanicSell(initialCash: int, threshold: real, feeRate: real): (s: Strategy)
    ensures s.name == PanicName && Fresh(s.ledger) && s.ledger.cash == initialCash
    ensures s.kind == PanicSell(threshold, feeRate, false)
  {
    Strategy(PanicName, Open(initialCash), PanicSell(threshold, feeRate, false))
  }

  function NewDca(initialCash: int, dropRate: real, interval: int, ratio: real, feeRate: real): (s: Strategy)
    ensures s.name == DcaName && Fresh(s.ledger) && s.ledger.cash == initialCash
    ensures s.kind == Dca(dropRate, interval, ratio, feeRate, -1, 0)
  {
    Strategy(DcaName, Open(initialCash), Dca(dropRate, interval, ratio, feeRate, -1, 0))
  }

  function NewHold(initialCash: int, ratio: real, feeRate: real): (s: Strategy)
    ensures s.name == HoldName && Fresh(s.ledger) && s.ledger.cash == initialCash
    ensures s.kind == Hold(ratio, feeRate, false)
  {
    Strategy(HoldName, Open(initialCash), Hold(ratio, feeRate, false))
  }

  /** Every variant divides by the per-share cost below, which is positive for a
      positive price once the fee rate is not negative. */
  predicate WellFormed(s: Strategy) {
    s.kind.feeRate >= 0.0
  }

  /** The per-share cost a strategy budgets with: the price plus the fee on one
      share, truncated by the cast to `int`. */
  function UnitCost(price: int, feeRate: real): (c: int)
    requires price > 0 && feeRate >= 0.0
    ensures c >= price
  {
    price + Trunc(price as real * feeRate)
  }

  /** How many whole shares a budget pays for at the per-share cost. */
  function Affordable(budget: int, price: int, feeRate: real): (q: int)
    requires price > 0 && feeRate >= 0.0
    ensures budget >= 0 ==> 0 <= q && q * UnitCost(price, feeRate) <= budget < (q + 1) * UnitCost(price, feeRate)
  {
    var c := UnitCost(price, feeRate);
    if budget >= 0 then CDivBrackets(budget, c); CDiv(budget, c)
    else CDiv(budget, c)
  }

  // ---------------------------------------------------------------- panic sell

  /** The tick the panic seller tries to enter on: not yet bought and at least
      one share's price in cash. */
  predicate PanicEntryTick(s: Strategy, price: int)
    requires s.kind.PanicSell?
  {
    !s.kind.hasBought && s.ledger.cash >= price
  }

  /** Loss relative to the average price at or beyond the stop-loss rate,
      compared inclusively. */
  predicate LossReached(l: Ledger, price: int, stopLossRate: real)
    requires l.avgPrice > 0
  {
    (price - l.avgPrice) as real / l.avgPrice as real <= stopLossRate
  }

  /** The stop-loss check runs only on a tick that is not an entry tick. */
  predicate StopLossFires(s: Strategy, price: int)
    requires s.kind.PanicSell?
  {
    && !PanicEntryTick(s, price)
    && s.ledger.shares > 0
    && s.ledger.avgPrice > 0
    && LossReached(s.ledger, price, s.kind.stopLossRate)
  }

  /** Panic seller, before recording equity: on the entry tick it spends all
      its cash on as many shares as the per-share cost allows, and marks itself
      as having bought whenever that count is positive, whether or not the
      ledger then accepts the trade; on any other tick it liquidates once the
      loss reaches the stop-loss rate. */
  function PanicSellAct(s: Strategy, price: int): (r: Strategy)
    requires s.kind.PanicSell? && WellFormed(s) && price > 0
    ensures r.name == s.name && r.kind.PanicSell? && WellFormed(r)
    ensures r.kind.stopLossRate == s.kind.stopLossRate && r.kind.feeRate == s.kind.feeRate
    ensures r.ledger.equity == s.ledger.equity
    // the flag is never reset, and it is set exactly when a positive quantity
    // was computed on the entry tick
    ensures s.kind.hasBought ==> r.kind.hasBought
    ensures r.kind.hasBought != s.kind.hasBought <==>
      PanicEntryTick(s, price) && Affordable(s.ledger.cash, price, s.kind.feeRate) > 0
    // at most one trade per tick: a buy only on the entry tick, a sale only
    // when the stop-loss fires
    ensures r.ledger.buyCount == s.ledger.buyCount + 1 ==>
      PanicEntryTick(s, price) && r.ledger.sellCount == s.ledger.sellCount
    ensures r.ledger.buyCount == s.ledger.buyCount || r.ledger.buyCount == s.ledger.buyCount + 1
    ensures r.ledger.sellCount == s.ledger.sellCount + 1 <==> StopLossFires(s, price)
    ensures r.ledger.sellCount == s.ledger.sellCount || r.ledger.sellCount == s.ledger.sellCount + 1
    ensures StopLossFires(s, price) ==> r.ledger.shares == 0 && r.ledger.buyCount == s.ledger.buyCount
    // the entry offers the ledger all the shares the whole cash affords; the
    // stop-loss liquidates the holding
    ensures r.kind.hasBought != s.kind.hasBought ==>
      r.ledger == Buy(s.ledger, price, Affordable(s.ledger.cash, price, s.kind.feeRate), s.kind.feeRate)
    ensures StopLossFires(s, price) ==> r.ledger == SellAll(s.ledger, price, s.kind.feeRate)
    // a tick with neither a positive entry quantity nor a stop-loss changes
    // nothing
    ensures (!(PanicEntryTick(s, price) && Affordable(s.ledger.cash, price, s.kind.feeRate) > 0)
             && !StopLossFires(s, price)) ==> r == s
  {
    var l := s.ledger;
    var k := s.kind;
    if !k.hasBought && l.cash >= price then
      var qty := Affordable(l.cash, price, k.feeRate);
      if qty > 0 then
        s.(ledger := Buy(l, price, qty, k.feeRate), kind := PanicSell(k.stopLossRate, k.feeRate, true))
      else
        s
    else if l.shares > 0 && l.avgPrice > 0 then
      if LossReached(l, price, k.stopLossRate) then
        s.(ledger := SellAll(l, price, k.feeRate))
      else
        s
    else
      s
  }

  // ------------------------------------------------------ dollar-cost averaging

  /** The drop trigger: a recorded last-buy price and a move from it at or below
      the drop rate. */
  predicate DropMet(k: Kind, price: int)
    requires k.Dca?
  {
    k.lastBuyPrice > 0 && (price - k.lastBuyPrice) as real / k.lastBuyPrice as real <= k.dropRate
  }

  /** The decision as the source writes it: a first buy while nothing has been
      bought, else a buy once the interval has passed or the drop trigger is met,
      and never without at least one share's price in cash. */
  predicate DcaShouldBuy(s: Strategy, idx: int, price: int)
    requires s.kind.Dca?
  {
    if s.kind.lastBuyIndex < 0 && s.ledger.cash >= price then true
    else if s.ledger.cash >= price then
      var intervalMet := idx - s.kind.lastBuyIndex >= s.kind.interval;
      intervalMet || DropMet(s.kind, price)
    else false
  }

  /** The spend on a triggered buy: the buy ratio of current cash, truncated,
      or all the cash when that fraction is below one share's price. */
  function DcaBudget(cash: int, ratio: real, price: int): int {
    var amount := Trunc(cash as real * ratio);
    if amount < price then cash else amount
  }

  /** Dollar-cost averaging, before recording equity. The last-buy memory is
      updated whenever a positive quantity was computed, not only when the
      ledger accepts the trade. */
  function DcaAct(s: Strategy, idx: int, price: int): (r: Strategy)
    requires s.kind.Dca? && WellFormed(s) && price > 0
    ensures r.name == s.name && r.kind.Dca? && WellFormed(r)
    ensures r.kind.(lastBuyIndex := s.kind.lastBuyIndex, lastBuyPrice := s.kind.lastBuyPrice) == s.kind
    ensures r.ledger.equity == s.ledger.equity
    // never sells, never loses shares
    ensures r.ledger.sellCount == s.ledger.sellCount
    ensures r.ledger.shares >= s.ledger.shares
    // a trade, or a change of memory, only on a triggered tick with a
    // positive quantity for the budget; the memory then names this tick
    ensures r != s ==>
      && DcaShouldBuy(s, idx, price)
      && Affordable(DcaBudget(s.ledger.cash, s.kind.buyRatio, price), price, s.kind.feeRate) > 0
      && r.kind.lastBuyIndex == idx && r.kind.lastBuyPrice == price
    // conversely, such a tick always rewrites the memory
    ensures DcaShouldBuy(s, idx, price) && Affordable(DcaBudget(s.ledger.cash, s.kind.buyRatio, price), price, s.kind.feeRate) > 0 ==>
      r.kind.lastBuyIndex == idx && r.kind.lastBuyPrice == price
    ensures r.ledger.buyCount == s.ledger.buyCount || r.ledger.buyCount == s.ledger.buyCount + 1
    // what a buy adds fits in the budget at the per-share cost
    ensures r.ledger.shares > s.ledger.shares ==>
      (r.ledger.shares - s.ledger.shares) * UnitCost(price, s.kind.feeRate)
        <= DcaBudget(s.ledger.cash, s.kind.buyRatio, price)
    // a triggered tick with a positive quantity offers the ledger what the
    // budget affords
    ensures DcaShouldBuy(s, idx, price) && Affordable(DcaBudget(s.ledger.cash, s.kind.buyRatio, price), price, s.kind.feeRate) > 0 ==>
      r.ledger == Buy(s.ledger, price, Affordable(DcaBudget(s.ledger.cash, s.kind.buyRatio, price), price, s.kind.feeRate), s.kind.feeRate)
  {
    var l := s.ledger;
    var k := s.kind;
    if DcaShouldBuy(s, idx, price) then
      var budget := DcaBudget(l.cash, k.buyRatio, price);
      var qty := Affordable(budget, price, k.feeRate);
      if qty > 0 then
        s.(ledger := Buy(l, price, qty, k.feeRate), kind := k.(lastBuyIndex := idx, lastBuyPrice := price))
      else
        s
    else
      s
  }

  // ------------------------------------------------------------- buy and hold

  /** The spend of the one buy: the initial-buy ratio of current cash,
      truncated. */
  function HoldBudget(cash: int, ratio: real): int {
    Trunc(cash as real * ratio)
  }

  /** Buy and hold, before recording equity: on the first tick with at least
      one share's price in cash it spends the initial-buy ratio of that cash
      once, and then does nothing more. */
  function HoldAct(s: Strategy, price: int): (r: Strategy)
    requires s.kind.Hold? && WellFormed(s) && price > 0
    ensures r.name == s.name && r.kind.Hold? && WellFormed(r)
    ensures r.kind.initialBuyRatio == s.kind.initialBuyRatio && r.kind.feeRate == s.kind.feeRate
    ensures r.ledger.equity == s.ledger.equity
    ensures s.kind.hasBought ==> r == s
    ensures r.ledger.sellCount == s.ledger.sellCount
    ensures r.ledger.shares >= s.ledger.shares
    ensures r.ledger.buyCount == s.ledger.buyCount + 1 ==> !s.kind.hasBought && r.kind.hasBought
    ensures r.ledger.buyCount == s.ledger.buyCount || r.ledger.buyCount == s.ledger.buyCount + 1
    // the flag is set exactly on the first tick with a share's price in cash
    // and a positive quantity for the initial-buy ratio of that cash, which is
    // the quantity offered to the ledger
    ensures r.kind.hasBought != s.kind.hasBought <==>
      !s.kind.hasBought && s.ledger.cash >= price &&
      Affordable(HoldBudget(s.ledger.cash, s.kind.initialBuyRatio), price, s.kind.feeRate) > 0
    ensures r.kind.hasBought != s.kind.hasBought ==>
      r.ledger == Buy(s.ledger, price, Affordable(HoldBudget(s.ledger.cash, s.kind.initialBuyRatio), price, s.kind.feeRate), s.kind.feeRate)
    // a tick that does not set the flag changes nothing
    ensures r.kind.hasBought == s.kind.hasBought ==> r == s
  {
    var l := s.ledger;
    var k := s.kind;
    if !k.hasBought && l.cash >= price then
      var amount := HoldBudget(l.cash, k.initialBuyRatio);
      var qty := Affordable(amount, price, k.feeRate);
      if qty > 0 then
        s.(ledger := Buy(l, price, qty, k.feeRate), kind := Hold(k.initialBuyRatio, k.feeRate, true))
      else
        s
    else
      s
  }

  // ------------------------------------------------------------ the tick step

  /** The variant's decision for the tick, before the equity point. */
  function Act(s: Strategy, idx: int, price: int): (r: Strategy)
    requires WellFormed(s) && price > 0
    ensures r.name == s.name && r.kind.feeRate == s.kind.feeRate && WellFormed(r)
    ensures r.kind.PanicSell? == s.kind.PanicSell? && r.kind.Dca? == s.kind.Dca? && r.kind.Hold? == s.kind.Hold?
    ensures r.ledger.equity == s.ledger.equity
    // at most one buy per tick, and only the panic seller ever sells
    ensures r.ledger.buyCount == s.ledger.buyCount || r.ledger.buyCount == s.ledger.buyCount + 1
    ensures !s.kind.PanicSell? ==> r.ledger.sellCount == s.ledger.sellCount && r.ledger.shares >= s.ledger.shares
  {
    match s.kind
    case PanicSell(_, _, _) => PanicSellAct(s, price)
    case Dca(_, _, _, _, _, _) => DcaAct(s, idx, price)
    case Hold(_, _, _) => HoldAct(s, price)
  }

  /** One price tick: the variant acts, then the tick's equity point, the value
      of the ledger after acting, is appended. */
  function OnPrice(s: Strategy, idx: int, price: int): (r: Strategy)
    requires WellFormed(s) && price > 0
    ensures r.name == s.name && r.kind.feeRate == s.kind.feeRate && WellFormed(r)
    ensures r.kind.PanicSell? == s.kind.PanicSell? && r.kind.Dca? == s.kind.Dca? && r.kind.Hold? == s.kind.Hold?
    ensures |r.ledger.equity| == |s.ledger.equity| + 1
    ensures r.ledger.equity[..|s.ledger.equity|] == s.ledger.equity
    ensures r.ledger.equity[|s.ledger.equity|] == TotalValue(r.ledger, price)
    // apart from the new point, the tick is exactly the variant's decision
    ensures r.(ledger := r.ledger.(equity := s.ledger.equity)) == Act(s, idx, price)
  {
    var t := Act(s, idx, price);
    t.(ledger := RecordEquity(t.ledger, price))
  }

  predicate AllPositive(prices: seq<int>) {
    forall i :: 0 <= i < |prices| ==> prices[i] > 0
  }

  /** The strategy after ticks `0 .. |prices| - 1`, in order. */
  function Run(s: Strategy, prices: seq<int>): (r: Strategy)
    requires WellFormed(s) && AllPositive(prices)
    ensures WellFormed(r) && r.name == s.name && r.kind.feeRate == s.kind.feeRate
    ensures r.kind.PanicSell? == s.kind.PanicSell? && r.kind.Dca? == s.kind.Dca? && r.kind.Hold? == s.kind.Hold?
    decreases |prices|
  {
    if |prices| == 0 then s
    else
      var n := |prices| - 1;
      OnPrice(Run(s, prices[..n]), n, prices[n])
  }

  /** The run over the first `n + 1` ticks is the run over the first `n`
      followed by tick `n`, with index `n`: the ticks are applied in order. */
  lemma {:induction false} RunStepsInOrder(s: Strategy, prices: seq<int>, n: nat)
    requires WellFormed(s) && AllPositive(prices) && n < |prices|
    ensures AllPositive(prices[..n]) && AllPositive(prices[..n + 1])
    ensures Run(s, prices[..n + 1]) == OnPrice(Run(s, prices[..n]), n, prices[n])
  {
    assert prices[..n + 1][..n] == prices[..n];
    assert prices[..n + 1][n] == prices[n];
  }
}
